=== FILE: README.md ===
# accountabot core in Dafny

accountabot is a Discord bot that keeps people accountable on their side
projects. Every message a user posts in a *tracked channel* counts as a
check-in for that user's project there. Messages starting with `!ticket`
open, complete or list the user's tickets in that channel. An hourly tick
sends a reminder, inside a five-minute window after the configured time of
day, to everyone whose last check-in is older than the configured frequency.
The `/stats` and `/progress` commands summarise tickets and check-ins per
channel, and `/progress` draws a ten-cell bar.

This project models that core as pure functions over an immutable store. The
store maps a user id and then a channel id to a `UserActivity`: last check-in,
all check-ins, tickets keyed by id, and project name. Every operation is one
atomic transition that takes the current time `now`, in seconds, as an
argument.

Modules:

- `Wrappers`: an `Option` type.
- `Strings`: the parts of Go's `strings` and `fmt` the bot relies on, namely
  `TrimSpace`, `SplitN`, `Split` and `%d`.
- `Store`: the data model and `createTicket`, `completeTicket`, `listTickets`
  and `recordCheckIn`. It also states the store invariant *well numbered*:
  with n tickets the keys are exactly `"1"` .. `"n"`, and every ticket carries
  its own key as its id.
- `Commands`: `messageCreate` gating and `!ticket` parsing and dispatch.
- `Reminders`: the reminder window and the overdue test.
- `Progress`: ticket counts, check-ins in the last week, the `/stats` and
  `/progress` summaries, and the progress bar.

The central property is that ticket creation never overwrites a ticket. The
new id is the decimal form of the ticket count plus one. That id is fresh
because the keys are `"1"` .. `"n"`, and every operation preserves
that invariant. `Store.CreateTicketOverwritesWithoutInvariant` shows that
without the invariant the computed id can collide with an existing ticket,
which is then replaced.

## Model

| member | source | states |
|---|---|---|
| Strings.TrimSpace | main.go:163-168 | The trimmed title or description has no white space, in Go's `unicode.IsSpace` sense, at either end, is no longer than the input, and uses only the input's characters |
| Strings.TrimSpacePadded | main.go:163-168 | Trimming a trimmed string padded on both sides with white space gives exactly that string back |
| Strings.TrimSpaceIdempotent | main.go:163-168 | Trimming twice is the same as trimming once |
| Strings.TrimmedFixed | main.go:165-168 | Trimming leaves a title, description or id that is already trimmed unchanged |
| Strings.SplitN | main.go:148 | `SplitN` gives between 1 and n parts; no part before the last holds the separator, and the last holds none unless the limit was reached |
| Strings.JoinSplitN | main.go:148 | Gluing the parts of `SplitN` back together with the separator gives the original message |
| Strings.SplitNJoin | main.go:164 | Any list of parts that `SplitN` could produce is split back to itself from its joined form |
| Strings.Split | main.go:402 | `Split` gives at least one part; no part holds the separator, and the parts rejoin to the input |
| Strings.SplitCount | main.go:402-403 | `Split` gives one more part than there are separators, so the reminder time has two parts exactly when it holds one colon |
| Strings.Decimal | main.go:238 | The ticket id is a non-empty string of decimal digits with no leading zero, except for 0 itself |
| Strings.DecimalRoundTrip | main.go:238 | Reading the decimal id back as a number gives the ticket number |
| Strings.DecimalInjective | main.go:238 | Distinct ticket numbers get distinct ids |
| Store.IdRangeNext | main.go:238 | The id of ticket n+1 is none of `"1"` .. `"n"`, and adding it gives `"1"` .. `"n+1"` |
| Store.WellNumberedAdd | main.go:238-251 | Adding a ticket under the next id to well-numbered tickets adds a new key, grows the map by one and keeps it well numbered |
| Store.CreateTicket | main.go:217-257 | The id is the decimal form of the previous ticket count plus one. The activity, created if missing, gains an open ticket with that id, title, description, creation time now, no completion time and the activity's project. Nothing else in that activity changes, the user and channel become known, and every other activity is untouched |
| Store.CreateTicketNewActivity | main.go:221-251 | For a user and channel without an activity, creating a ticket starts one that counts as checked in now, with no check-ins and the tracked channel's project (empty when untracked), holding exactly one ticket, "1", with the given title and description |
| Store.CreateTicketTickets | main.go:238-251 | The tickets after creation are the earlier tickets with the new open ticket stored under the new id |
| Store.CreateTicketFresh | main.go:238-251 | On well-numbered tickets the new id is fresh, the count grows by one, every earlier ticket survives unchanged and the tickets stay well numbered |
| Store.CreateTicketOverwritesWithoutInvariant | main.go:238-243 | A channel whose only ticket is "2" gets id "2" again, and the old ticket is replaced |
| Store.CompleteTicket | main.go:259-292 | Succeeds exactly when the user, the channel and the ticket id all exist; a failure changes nothing. On success only that ticket changes, to done with completion time now; every other ticket, the check-in data, the project and every other activity stay the same |
| Store.CompleteTicketWellNumbered | main.go:259-292 | On well-numbered tickets, completion succeeds exactly for the ids "1" .. "n" of an existing activity and keeps the tickets well numbered |
| Store.CompleteLeadingZeroFails | main.go:275-279 | On well-numbered tickets, an id with a leading zero such as "01" never names a ticket, so completing it fails |
| Store.RecordCheckIn | main.go:320-349 | The last check-in becomes now and now is appended to the check-ins. The tickets are kept. An existing activity keeps its project and a new one takes the given project. Every other activity is untouched |
| Store.RecordCheckInsHistory | main.go:340-345 | After a run of check-ins, the history has grown by exactly those times in order, the last check-in is the last of them, and the tickets and other activities are unchanged |
| Store.ListTickets | main.go:294-318 | Returns the tickets together with the order of keys the iteration visited. Every key of the user's tickets in the channel appears exactly once in that order, entry i of the list is the ticket under the i-th key, and the list is as long as the ticket map. Nothing is listed for an unknown user or channel |
| Store.CreateTicketValid | main.go:217-257 | Ticket creation keeps every activity's tickets well numbered |
| Store.CompleteTicketValid | main.go:259-292 | Ticket completion keeps every activity's tickets well numbered |
| Store.RecordCheckInValid | main.go:320-349 | A check-in keeps every activity's tickets well numbered |
| Store.CreateTicketsSequential | main.go:238 | Creating tickets one after another hands out the next ids in sequence, grows the count by the number created and keeps the tickets well numbered |
| Store.FreshTicketIds | main.go:221-238 | In a channel with no activity yet, the ids handed out are "1", "2", "3", ... in creation order |
| Commands.ParseTicketCommand | main.go:147-215 | Gives the general usage exactly when the message has no space. A created title is trimmed and holds no vertical bar; the description and a done id are trimmed |
| Commands.ParseParts | main.go:148-214 | From the space-separated parts: general usage exactly when there are fewer than two, and the same trimming guarantees |
| Commands.ParseCreateRoundTrip | main.go:154-167 | `!ticket create`, a title, a vertical bar and a description, parses back to exactly that trimmed title and description |
| Commands.ParseCreateNoDescription | main.go:161-166 | A `create` without a vertical bar has the whole trimmed rest as title and an empty description |
| Commands.ParseDoneRoundTrip | main.go:174-180 | `!ticket done <id>` parses back to the trimmed id |
| Commands.ParseList | main.go:148-190 | `list`, alone or followed by anything, is a listing |
| Commands.ParseMissingArgument | main.go:155-175 | `create` or `done` with nothing after it gets its own usage reply, not an action |
| Commands.ParseUnknownAction | main.go:153-214 | Any second word other than `create`, `done` and `list`, alone or followed by anything, is an unknown action |
| Commands.ParseIgnoresFirstWord | main.go:141-153 | Whatever the first word is, a message parses as if that word were `!ticket`, so `!tickets list` lists |
| Commands.HandleTicketCommand | main.go:147-215 | Every `!ticket` message gets a reply. A message without a space gets the general usage reply and changes nothing. Only the sender's activity in that channel can change, and an existing one keeps its check-in data and project |
| Commands.HandleCreate | main.go:164-172 | `!ticket create`, a title, a vertical bar and a description, on well-numbered tickets, answers with the next id and the title. The user's tickets in the channel gain exactly that open ticket and lose none |
| Commands.HandleDone | main.go:174-187 | `!ticket done <id>` answers that the ticket is completed exactly when the user has that ticket in the channel, and then marks it done now. Otherwise it answers that the ticket was not found and changes nothing |
| Commands.HandleList | main.go:189-210 | `!ticket list`, alone or followed by anything, changes nothing, and answers with the user's tickets in the channel, or that there are none exactly when the channel has no tickets |
| Commands.HandleMissingArgument | main.go:155-177 | `!ticket create` or `!ticket done` with nothing after it changes nothing and answers with that action's usage |
| Commands.HandleUnknownAction | main.go:211-214 | A second word other than `create`, `done` and `list` changes nothing and answers that the action is unknown |
| Commands.HandleMessage | main.go:129-145 | The bot's own messages and untracked channels change nothing and get no reply. Otherwise the message is appended as a check-in exactly when the channel is tracked, and the last check-in becomes now. An existing activity keeps its project and a new one takes the tracked channel's. There is a reply exactly when the message is a tracked `!ticket` message from someone else. Without the prefix the tickets do not change, and other activities never change |
| Commands.HandleMessageCreate | main.go:129-145 | Posting `!ticket create`, a title, a vertical bar and a description in a tracked channel, as anyone but the bot, appends now to the author's check-ins there and answers with the next id and the title; on well-numbered tickets that id is fresh and the channel's tickets gain exactly that open ticket, carrying the activity's project or, for a new activity, the channel's |
| Commands.HandleMessageDone | main.go:129-145 | Posting `!ticket done <id>` in a tracked channel, as anyone but the bot, appends now to the author's check-ins there; when the author has that ticket there it is marked done now and the reply says it was completed, otherwise the tickets stay as they were and the reply says it was not found |
| Commands.HandleMessageList | main.go:129-145 | Posting `!ticket list`, alone or followed by anything, in a tracked channel, as anyone but the bot, appends now to the author's check-ins there, leaves the tickets alone and answers with them, or that there are none |
| Commands.HandleTicketCommandValid | main.go:147-215 | Ticket commands keep the store well numbered |
| Commands.HandleMessageValid | main.go:129-145 | Handling any message keeps the store well numbered |
| Reminders.ReminderFires | main.go:402-416 | A tick sends reminders exactly when the reminder time holds one colon, the hour matches and the minute lies in the five minutes from the configured minute |
| Reminders.DueReminders | main.go:421-448 | A pair is reminded exactly when a reminder channel is set, the activity exists, and more than the frequency in hours has passed since its last check-in |
| Reminders.Tick | main.go:414-417 | A tick reminds only pairs that are due, reminds nobody unless it falls in the reminder window, and inside the window reminds every due pair |
| Reminders.NoReminderOutsideWindow | main.go:415-416 | Outside the window nobody is reminded |
| Reminders.CheckInClearsReminder | main.go:340-342 | With a non-negative frequency, a check-in removes exactly its own pair from the reminder list |
| Reminders.CreateTicketKeepsReminders | main.go:227-235 | With a non-negative frequency, creating a ticket never changes who is reminded, even when it creates an activity, which starts checked in now |
| Reminders.CompleteTicketKeepsReminders | main.go:259-292 | Completing a ticket never changes who is reminded |
| Reminders.DueRemindersGrow | main.go:436 | Without check-ins, everyone due now is still due later |
| Reminders.SingleOverdue | main.go:434-436 | In a store with one overdue activity, exactly that pair is reminded |
| Reminders.ThirtyHoursOverdue | main.go:402-436 | With reminder time "09:00" and a 24-hour frequency, a check-in 30 hours old is reminded on a tick from 09:00 through 09:04 |
| Progress.TicketCounts | main.go:559-566 | The total is the number of tickets and the completed count never exceeds it. It is zero exactly when no ticket is done, and equals the total exactly when every ticket is done |
| Progress.DoneCount | main.go:559-566 | The done set is no larger than the ticket map; it is empty exactly when nothing is done and full exactly when everything is |
| Progress.CountTickets | main.go:559-566 | The counting loop arrives at the same counts as the set-based definition |
| Progress.CompleteTicketCounts | main.go:282-284 | Completing an open ticket adds one to the done count; completing a done ticket, or failing, changes no count |
| Progress.CreateTicketCounts | main.go:238-251 | On well-numbered tickets, creating a ticket adds one to the total and leaves the done count alone |
| Progress.CheckInsAfter | main.go:574-581 | The last-week count never exceeds the number of check-ins |
| Progress.CheckInsAfterAntitone | main.go:577-581 | Counting from a later instant counts no more check-ins |
| Progress.CheckInsAfterBounds | main.go:577-581 | The count is all check-ins when every one is after the cutoff and zero when none is |
| Progress.CheckInCountsThisWeek | main.go:340-342 | A check-in now adds one to the last-week count exactly when the week started before now |
| Progress.Stats | main.go:535-598 | Gives nothing for a user without activity. Otherwise there is one summary per channel of the user. Each summary holds the channel's project name, its ticket counts and the number of its check-ins after the cutoff, so completed is at most total and the weekly count at most the number of check-ins |
| Progress.CheckInUpdatesStats | main.go:557-581 | After a check-in the user has stats, and that channel's weekly count grows by one exactly when the week started before now. Its ticket counts stay, and every other channel's summary is unchanged |
| Progress.ProgressOf | main.go:600-655 | Gives nothing for a user without activity. Otherwise the counts cover exactly the user's channels that hold a ticket, each equal to that channel's ticket counts, with a positive total |
| Progress.CreateTicketShowsProgress | main.go:622-636 | After opening a ticket in a channel, that channel appears in the user's progress |
| Progress.CreateProgressBar | main.go:664-682 | The cell-by-cell loop builds a bracketed bar of ten cells: the clamped number of full cells first, then empty ones |
| Progress.BarCounts | main.go:671-679 | The bar is twelve characters long, with exactly the clamped number of full cells and ten minus that many empty ones |

## Left out

- Discord glue is not modelled: sessions, message sending, slash-command registration and `/track`, which edits the configuration and writes it to disk. Replies are a `Reply` datatype without their text or emoji.
- Persistence is not modelled: loading and saving the JSON database and configuration. So are the `nil` maps a hand-edited JSON file could produce.
- Concurrency is not modelled: the mutex and the hourly ticker. Each operation is one atomic transition, and the clock is the `now` argument.
- Times are whole seconds. Go's `time.Time` and its monotonic clock, and the nanosecond `time.Duration` with its 64-bit overflow for huge frequencies, are left out.
- Reminders.ReminderFires takes the hour and minute as inputs, because parsing them with `fmt.Sscanf` and its defaults (9 and 0) is left out. The calendar hour and minute of `now` are inputs too.
- Progress.Stats takes the start of the last week as an input, because `AddDate(0, 0, -7)` calendar arithmetic is left out. The days-since-last-check-in figure is omitted, because it is computed through a float.
- Progress.CreateProgressBar takes the number of full cells as an integer. `getPercentage` and the float-to-int truncation in `createProgressBar` are floating point and are not modelled.
- The ticket status string is the `Status` datatype, and the zero `CompletedAt` time is `None`. Status `in_progress` exists but no operation sets it.
- The order of map iteration is not modelled. Store.ListTickets may return the tickets in any order, and the rendered list text is not modelled.
- Strings are sequences of Unicode code points, not UTF-8 bytes. Splitting on an ASCII separator and trimming Unicode white space give the same pieces either way.

=== FILE: commands.dfy ===
/** The text side of the bot: which messages count as check-ins, and how a
    `!ticket` message is parsed and dispatched to the store. */
module Commands {
  import opened Wrappers
  import opened Strings
  import opened Store

  /** The three usage replies: the general one, and the ones for `create`
      and `done` without an argument. */
  datatype UsageKind = General | CreateUsage | DoneUsage

  datatype TicketCommand =
    | CreateCmd(title: string, description: string)
    | DoneCmd(id: string)
    | ListCmd
    | UsageCmd(kind: UsageKind)
    | UnknownCmd

  /** The message prefix that marks a ticket command. */
  const TicketPrefix := "!ticket"

  /** Parses a `!ticket` message: at most three space-separated parts, the
      second naming the action. The first part is not inspected. */
  function ParseTicketCommand(content: string): (r: TicketCommand)
    ensures r == UsageCmd(General) <==> ' ' !in content
    ensures r.CreateCmd? ==> IsTrimmed(r.title) && '|' !in r.title && IsTrimmed(r.description)
    ensures r.DoneCmd? ==> IsTrimmed(r.id)
  {
    ParseParts(SplitN(content, ' ', 3))
  }

  /** The action, given the space-separated parts of the message. `create`
      takes the trimmed text before the first `|` as the title and the
      trimmed rest as the description; `done` takes the trimmed third part as
      the ticket id. */
  function ParseParts(parts: seq<string>): (r: TicketCommand)
    requires 1 <= |parts| <= 3
    ensures r == UsageCmd(General) <==> |parts| < 2
    ensures r.CreateCmd? ==> IsTrimmed(r.title) && '|' !in r.title && IsTrimmed(r.description)
    ensures r.DoneCmd? ==> IsTrimmed(r.id)
  {
    if |parts| < 2 then UsageCmd(General)
    else if parts[1] == "create" then
      if |parts| < 3 then UsageCmd(CreateUsage)
      else
        var titleDesc := SplitN(parts[2], '|', 2);
        CreateCmd(TrimSpace(titleDesc[0]), if |titleDesc| > 1 then TrimSpace(titleDesc[1]) else "")
    else if parts[1] == "done" then
      if |parts| < 3 then UsageCmd(DoneUsage) else DoneCmd(TrimSpace(parts[2]))
    else if parts[1] == "list" then ListCmd
    else UnknownCmd
  }

  /** Splitting a command line whose first two words are `head` and `action`
      gives those words and the untouched rest. */
  lemma SplitCommandLine(head: string, action: string, rest: string)
    requires ' ' !in head && ' ' !in action
    ensures SplitN(head + " " + action + " " + rest, ' ', 3) == [head, action, rest]
  {
    var parts := [head, action, rest];
    assert Join(parts[2..], ' ') == rest;
    assert Join(parts[1..], ' ') == action + " " + rest;
    assert head + " " + action + " " + rest == Join(parts, ' ');
    SplitNJoin(parts, ' ', 3);
  }

  /** The title part of a `create` command ends at the first `|`. */
  lemma SplitTitle(title: string, description: string)
    requires '|' !in title
    ensures SplitN(title + " | " + description, '|', 2) == [title + " ", " " + description]
  {
    var titleDesc := [title + " ", " " + description];
    assert Join(titleDesc[1..], '|') == " " + description;
    assert title + " | " + description == Join(titleDesc, '|');
    SplitNJoin(titleDesc, '|', 2);
  }

  /** How a `create` line with a `|` is parsed, given how it splits. */
  lemma ParseCreateParts(content: string, rest: string, titlePart: string, descPart: string)
    requires SplitN(content, ' ', 3) == ["!ticket", "create", rest]
    requires SplitN(rest, '|', 2) == [titlePart, descPart]
    ensures ParseTicketCommand(content) == CreateCmd(TrimSpace(titlePart), TrimSpace(descPart))
  {
  }

  lemma SplitCreateLine(title: string, description: string)
    ensures SplitN("!ticket create " + title + " | " + description, ' ', 3)
            == ["!ticket", "create", title + " | " + description]
  {
    var rest := title + " | " + description;
    assert "!ticket create " + title + " | " + description == "!ticket" + " " + "create" + " " + rest;
    SplitCommandLine("!ticket", "create", rest);
  }

  lemma TrimBeforeBar(title: string)
    requires IsTrimmed(title)
    ensures TrimSpace(title + " ") == title
  {
    assert title + " " == [] + title + " ";
    TrimSpacePadded([], title, " ");
  }

  lemma TrimAfterBar(description: string)
    requires IsTrimmed(description)
    ensures TrimSpace(" " + description) == description
  {
    assert " " + description == " " + description + [];
    TrimSpacePadded(" ", description, []);
  }

  /** A `create` command with a title and a description parses back to them,
      whatever white space surrounds the `|`. */
  lemma ParseCreateRoundTrip(title: string, description: string)
    requires IsTrimmed(title) && '|' !in title && IsTrimmed(description)
    ensures ParseTicketCommand("!ticket create " + title + " | " + description) == CreateCmd(title, description)
  {
    SplitCreateLine(title, description);
    SplitTitle(title, description);
    TrimBeforeBar(title);
    TrimAfterBar(description);
    ParseCreateParts("!ticket create " + title + " | " + description, title + " | " + description,
                     title + " ", " " + description);
  }

  /** Splitting `!ticket`, an action word and the rest of the line. */
  lemma SplitActionLine(action: string, rest: string)
    requires ' ' !in action
    ensures SplitN("!ticket " + action + " " + rest, ' ', 3) == ["!ticket", action, rest]
  {
    assert "!ticket " + action + " " + rest == "!ticket" + " " + action + " " + rest;
    SplitCommandLine("!ticket", action, rest);
  }

  /** How a `create` line without a `|` is parsed, given how it splits. */
  lemma ParseCreateTitleOnly(content: string, rest: string)
    requires SplitN(content, ' ', 3) == ["!ticket", "create", rest]
    requires SplitN(rest, '|', 2) == [rest]
    ensures ParseTicketCommand(content) == CreateCmd(TrimSpace(rest), "")
  {
  }

  /** A `create` command without `|` has an empty description. */
  lemma ParseCreateNoDescription(title: string)
    requires IsTrimmed(title) && '|' !in title
    ensures ParseTicketCommand("!ticket create " + title) == CreateCmd(title, "")
  {
    assert "!ticket create " + title == "!ticket " + "create" + " " + title;
    SplitActionLine("create", title);
    TrimmedFixed(title);
    SplitNoSeparator(title, '|', 2);
    ParseCreateTitleOnly("!ticket create " + title, title);
  }

  /** How a `done` line is parsed, given how it splits. */
  lemma ParseDoneParts(content: string, rest: string)
    requires SplitN(content, ' ', 3) == ["!ticket", "done", rest]
    ensures ParseTicketCommand(content) == DoneCmd(TrimSpace(rest))
  {
  }

  /** A `done` command parses back to its ticket id. */
  lemma ParseDoneRoundTrip(id: string)
    requires IsTrimmed(id)
    ensures ParseTicketCommand("!ticket done " + id) == DoneCmd(id)
  {
    assert "!ticket done " + id == "!ticket " + "done" + " " + id;
    SplitActionLine("done", id);
    TrimmedFixed(id);
    ParseDoneParts("!ticket done " + id, id);
  }

  /** How a `list` line is parsed, given how it splits. */
  lemma ParseListParts(content: string, rest: string)
    requires SplitN(content, ' ', 3) == ["!ticket", "list", rest]
    ensures ParseTicketCommand(content) == ListCmd
  {
  }

  /** `list` lists, alone or followed by anything. */
  lemma ParseList(rest: string)
    ensures ParseTicketCommand("!ticket list") == ListCmd
    ensures ParseTicketCommand("!ticket list " + rest) == ListCmd
  {
    assert "!ticket list" == "!ticket " + "list";
    SplitBareAction("list");
    assert "!ticket list " + rest == "!ticket " + "list" + " " + rest;
    SplitActionLine("list", rest);
    ParseListParts("!ticket list " + rest, rest);
  }

  /** The word before the first space is never looked at, so any message
      merely starting with `!ticket`, such as `!tickets list`, is parsed
      as if it were `!ticket` itself. */
  lemma ParseIgnoresFirstWord(head: string, rest: string)
    requires ' ' !in head
    ensures ParseTicketCommand(head + " " + rest) == ParseTicketCommand(TicketPrefix + " " + rest)
  {
    var tail := SplitN(rest, ' ', 2);
    SplitNCons(head, ' ', rest, 3);
    assert ' ' !in TicketPrefix;
    SplitNCons(TicketPrefix, ' ', rest, 3);
    ParsePartsIgnoresHead(head, TicketPrefix, tail);
  }

  lemma ParsePartsIgnoresHead(h1: string, h2: string, tail: seq<string>)
    requires |tail| <= 2
    ensures ParseParts([h1] + tail) == ParseParts([h2] + tail)
  {
    assert ([h1] + tail)[1..] == tail == ([h2] + tail)[1..];
  }

  /** `create` and `done` with nothing after them get their own usage
      reply. */
  lemma ParseMissingArgument(action: string)
    requires action == "create" || action == "done"
    ensures ParseTicketCommand("!ticket " + action)
            == UsageCmd(if action == "create" then CreateUsage else DoneUsage)
  {
    SplitBareAction(action);
  }

  /** Splitting `!ticket` followed by a single word. */
  lemma SplitBareAction(action: string)
    requires ' ' !in action
    ensures SplitN("!ticket " + action, ' ', 3) == ["!ticket", action]
  {
    var parts := ["!ticket", action];
    assert Join(parts[1..], ' ') == action;
    assert "!ticket " + action == Join(parts, ' ');
    SplitNJoin(parts, ' ', 3);
  }

  /** Any second word other than `create`, `done` and `list` is an unknown
      action, whatever follows it. */
  lemma ParseUnknownAction(action: string, rest: string)
    requires ' ' !in action && action != "create" && action != "done" && action != "list"
    ensures ParseTicketCommand("!ticket " + action) == UnknownCmd
    ensures ParseTicketCommand("!ticket " + action + " " + rest) == UnknownCmd
  {
    SplitBareAction(action);
    SplitActionLine(action, rest);
  }

  // ---------------------------------------------------------------------------
  // Message handling

  datatype Message = Message(authorId: string, channelId: string, content: string)

  /** What the bot answers in the channel. The listing carries the tickets;
      the order and text of the rendered list are not modelled. */
  datatype Reply =
    | TicketCreated(id: string, title: string)
    | TicketCompleted(id: string)
    | TicketNotFound(id: string)
    | TicketList(tickets: map<string, Ticket>)
    | NoTickets
    | Usage(kind: UsageKind)
    | UnknownAction

  datatype Outcome = Outcome(db: Database, reply: Option<Reply>)

  /** Runs a `!ticket` message against the store for its author in its
      channel. Every path answers. */
  function HandleTicketCommand(db: Database, tracked: map<string, string>, m: Message, now: int): (r: Outcome)
    ensures r.reply.Some?
    ensures ' ' !in m.content ==> r == Outcome(db, Some(Usage(General)))
    ensures r.db == db || Lookup(r.db, m.authorId, m.channelId).Some?
    ensures OthersUnchanged(db, r.db, m.authorId, m.channelId)
    ensures Lookup(db, m.authorId, m.channelId).Some? ==>
      var before := Lookup(db, m.authorId, m.channelId).value;
      && Lookup(r.db, m.authorId, m.channelId).Some?
      && var after := Lookup(r.db, m.authorId, m.channelId).value;
      && after.lastCheckIn == before.lastCheckIn
      && after.checkIns == before.checkIns
      && after.projectName == before.projectName
  {
    match ParseTicketCommand(m.content)
    case CreateCmd(title, description) =>
      var c := CreateTicket(db, tracked, m.authorId, m.channelId, title, description, now);
      Outcome(c.db, Some(TicketCreated(c.id, title)))
    case DoneCmd(id) =>
      var c := CompleteTicket(db, m.authorId, m.channelId, id, now);
      Outcome(c.db, Some(if c.ok then TicketCompleted(id) else TicketNotFound(id)))
    case ListCmd =>
      var tickets := TicketsOf(db, m.authorId, m.channelId);
      Outcome(db, Some(if |tickets| == 0 then NoTickets else TicketList(tickets)))
    case UsageCmd(kind) => Outcome(db, Some(Usage(kind)))
    case UnknownCmd => Outcome(db, Some(UnknownAction))
  }

  /** `!ticket create <title> | <description>` opens that ticket under the
      next id and answers with that id and the title; on well-numbered
      tickets the channel gains exactly that ticket and loses none. */
  lemma HandleCreate(db: Database, tracked: map<string, string>, m: Message,
                     title: string, description: string, now: int)
    requires m.content == "!ticket create " + title + " | " + description
    requires IsTrimmed(title) && '|' !in title && IsTrimmed(description)
    requires WellNumbered(TicketsOf(db, m.authorId, m.channelId))
    ensures var r := HandleTicketCommand(db, tracked, m, now);
      var before := TicketsOf(db, m.authorId, m.channelId);
      var id := Decimal(|before| + 1);
      var project := TicketBase(db, tracked, m.authorId, m.channelId, now).projectName;
      && r.reply == Some(TicketCreated(id, title))
      && id !in before
      && TicketsOf(r.db, m.authorId, m.channelId) == before[id := Ticket(id, title, description, Open, now, None, project)]
  {
    ParseCreateRoundTrip(title, description);
    HandleParsedCreate(db, tracked, m, title, description, now);
    CreateTicketTickets(db, tracked, m.authorId, m.channelId, title, description, now);
    CreateTicketFresh(db, tracked, m.authorId, m.channelId, title, description, now);
  }

  /** A message parsed as `create` runs `createTicket` with its title and
      description and answers with the new id. */
  lemma HandleParsedCreate(db: Database, tracked: map<string, string>, m: Message,
                           title: string, description: string, now: int)
    ensures ParseTicketCommand(m.content) == CreateCmd(title, description) ==>
      var r := HandleTicketCommand(db, tracked, m, now);
      var c := CreateTicket(db, tracked, m.authorId, m.channelId, title, description, now);
      r == Outcome(c.db, Some(TicketCreated(c.id, title)))
  {
  }

  /** `!ticket done <id>` answers that the ticket is completed exactly when
      the user has it in this channel, and then marks it done now; otherwise
      it answers that the ticket was not found and changes nothing. */
  lemma HandleDone(db: Database, tracked: map<string, string>, m: Message, id: string, now: int)
    requires m.content == "!ticket done " + id && IsTrimmed(id)
    ensures var r := HandleTicketCommand(db, tracked, m, now);
      var before := TicketsOf(db, m.authorId, m.channelId);
      var found := Lookup(db, m.authorId, m.channelId).Some? && id in before;
      && r.reply == Some(if found then TicketCompleted(id) else TicketNotFound(id))
      && (!found ==> r.db == db)
      && (found ==> TicketsOf(r.db, m.authorId, m.channelId)
                    == before[id := before[id].(status := Done, completedAt := Some(now))])
  {
    ParseDoneRoundTrip(id);
    var c := CompleteTicket(db, m.authorId, m.channelId, id, now);
    if c.ok {
      var before := TicketsOf(db, m.authorId, m.channelId);
      assert TicketsOf(c.db, m.authorId, m.channelId) == before[id := before[id].(status := Done, completedAt := Some(now))];
    }
  }

  /** `!ticket list`, alone or with anything after it, changes nothing and answers
      with the user's tickets in this channel, or that there are none. */
  lemma HandleList(db: Database, tracked: map<string, string>, m: Message, rest: string, now: int)
    requires m.content == "!ticket list" || m.content == "!ticket list " + rest
    ensures var r := HandleTicketCommand(db, tracked, m, now);
      var tickets := TicketsOf(db, m.authorId, m.channelId);
      && r.db == db
      && r.reply == Some(if |tickets| == 0 then NoTickets else TicketList(tickets))
  {
    ParseList(rest);
  }

  /** `!ticket create` or `!ticket done` with nothing after it answers with
      that action's usage and changes nothing. */
  lemma HandleMissingArgument(db: Database, tracked: map<string, string>, m: Message, action: string, now: int)
    requires (action == "create" || action == "done") && m.content == "!ticket " + action
    ensures HandleTicketCommand(db, tracked, m, now)
            == Outcome(db, Some(Usage(if action == "create" then CreateUsage else DoneUsage)))
  {
    ParseMissingArgument(action);
  }

  /** An action other than `create`, `done` and `list` answers that the
      action is unknown and changes nothing. */
  lemma HandleUnknownAction(db: Database, tracked: map<string, string>, m: Message,
                            action: string, rest: string, now: int)
    requires ' ' !in action && action != "create" && action != "done" && action != "list"
    requires m.content == "!ticket " + action || m.content == "!ticket " + action + " " + rest
    ensures HandleTicketCommand(db, tracked, m, now) == Outcome(db, Some(UnknownAction))
  {
    ParseUnknownAction(action, rest);
  }

  /** Every `!ticket` command line starts with the prefix. */
  lemma CommandHasPrefix(rest: string)
    ensures TicketPrefix <= TicketPrefix + rest
  {
  }

  /** A tracked `!ticket` message from someone other than the bot is run as
      a ticket command on the store that already holds its check-in. */
  lemma HandleMessageDispatch(cfg: Config, botId: string, db: Database, m: Message, now: int)
    ensures m.authorId != botId && m.channelId in cfg.trackedChannels && TicketPrefix <= m.content ==>
      HandleMessage(cfg, botId, db, m, now)
      == HandleTicketCommand(RecordCheckIn(db, m.authorId, m.channelId, cfg.trackedChannels[m.channelId], now),
                             cfg.trackedChannels, m, now)
  {
  }

  /** Posting `!ticket create <title> | <description>` in a tracked channel
      counts as a check-in and opens that ticket under the next id: the
      author is answered with that id and the title, and on well-numbered
      tickets the channel gains exactly that ticket and loses none. */
  lemma HandleMessageCreate(cfg: Config, botId: string, db: Database, m: Message,
                            title: string, description: string, now: int)
    requires m.authorId != botId && m.channelId in cfg.trackedChannels
    requires m.content == "!ticket create " + title + " | " + description
    requires IsTrimmed(title) && '|' !in title && IsTrimmed(description)
    requires WellNumbered(TicketsOf(db, m.authorId, m.channelId))
    ensures var r := HandleMessage(cfg, botId, db, m, now);
      var before := TicketsOf(db, m.authorId, m.channelId);
      var id := Decimal(|before| + 1);
      var project := if Lookup(db, m.authorId, m.channelId).Some?
                     then Lookup(db, m.authorId, m.channelId).value.projectName
                     else cfg.trackedChannels[m.channelId];
      && r.reply == Some(TicketCreated(id, title))
      && id !in before
      && TicketsOf(r.db, m.authorId, m.channelId) == before[id := Ticket(id, title, description, Open, now, None, project)]
      && CheckInsOf(r.db, m.authorId, m.channelId) == CheckInsOf(db, m.authorId, m.channelId) + [now]
  {
    CommandHasPrefix(" create " + title + " | " + description);
    HandleMessageDispatch(cfg, botId, db, m, now);
    CheckInThenCreate(db, cfg.trackedChannels, m, cfg.trackedChannels[m.channelId], title, description, now);
  }

  /** Creating a ticket in a channel where the author already has an
      activity keeps that activity's project and check-ins. */
  lemma HandleCreateCheckedIn(db: Database, tracked: map<string, string>, m: Message,
                              title: string, description: string, now: int)
    requires Lookup(db, m.authorId, m.channelId).Some?
    requires m.content == "!ticket create " + title + " | " + description
    requires IsTrimmed(title) && '|' !in title && IsTrimmed(description)
    requires WellNumbered(TicketsOf(db, m.authorId, m.channelId))
    ensures var r := HandleTicketCommand(db, tracked, m, now);
      var before := TicketsOf(db, m.authorId, m.channelId);
      var id := Decimal(|before| + 1);
      var project := Lookup(db, m.authorId, m.channelId).value.projectName;
      && r.reply == Some(TicketCreated(id, title))
      && id !in before
      && TicketsOf(r.db, m.authorId, m.channelId) == before[id := Ticket(id, title, description, Open, now, None, project)]
      && CheckInsOf(r.db, m.authorId, m.channelId) == CheckInsOf(db, m.authorId, m.channelId)
  {
    HandleCreate(db, tracked, m, title, description, now);
    ParseCreateRoundTrip(title, description);
    HandleParsedCreate(db, tracked, m, title, description, now);
  }

  /** A check-in followed by `!ticket create` keeps the earlier tickets and
      check-ins and adds the new ticket under the next id. */
  lemma CheckInThenCreate(db: Database, tracked: map<string, string>, m: Message, projectName: string,
                          title: string, description: string, now: int)
    requires m.content == "!ticket create " + title + " | " + description
    requires IsTrimmed(title) && '|' !in title && IsTrimmed(description)
    requires WellNumbered(TicketsOf(db, m.authorId, m.channelId))
    ensures var r := HandleTicketCommand(RecordCheckIn(db, m.authorId, m.channelId, projectName, now), tracked, m, now);
      var before := TicketsOf(db, m.authorId, m.channelId);
      var id := Decimal(|before| + 1);
      var project := if Lookup(db, m.authorId, m.channelId).Some?
                     then Lookup(db, m.authorId, m.channelId).value.projectName
                     else projectName;
      && r.reply == Some(TicketCreated(id, title))
      && id !in before
      && TicketsOf(r.db, m.authorId, m.channelId) == before[id := Ticket(id, title, description, Open, now, None, project)]
      && CheckInsOf(r.db, m.authorId, m.channelId) == CheckInsOf(db, m.authorId, m.channelId) + [now]
  {
    var checkedIn := RecordCheckIn(db, m.authorId, m.channelId, projectName, now);
    assert TicketsOf(checkedIn, m.authorId, m.channelId) == TicketsOf(db, m.authorId, m.channelId);
    assert CheckInsOf(checkedIn, m.authorId, m.channelId) == CheckInsOf(db, m.authorId, m.channelId) + [now];
    HandleCreateCheckedIn(checkedIn, tracked, m, title, description, now);
  }

  /** A check-in followed by `!ticket done <id>` keeps the earlier
      check-ins and marks the ticket done exactly when it exists. */
  lemma CheckInThenDone(db: Database, tracked: map<string, string>, m: Message, projectName: string,
                        id: string, now: int)
    requires m.content == "!ticket done " + id && IsTrimmed(id)
    ensures var r := HandleTicketCommand(RecordCheckIn(db, m.authorId, m.channelId, projectName, now), tracked, m, now);
      var before := TicketsOf(db, m.authorId, m.channelId);
      && r.reply == Some(if id in before then TicketCompleted(id) else TicketNotFound(id))
      && TicketsOf(r.db, m.authorId, m.channelId)
         == (if id in before then before[id := before[id].(status := Done, completedAt := Some(now))] else before)
      && CheckInsOf(r.db, m.authorId, m.channelId) == CheckInsOf(db, m.authorId, m.channelId) + [now]
  {
    var checkedIn := RecordCheckIn(db, m.authorId, m.channelId, projectName, now);
    assert TicketsOf(checkedIn, m.authorId, m.channelId) == TicketsOf(db, m.authorId, m.channelId);
    assert CheckInsOf(checkedIn, m.authorId, m.channelId) == CheckInsOf(db, m.authorId, m.channelId) + [now];
    HandleDone(checkedIn, tracked, m, id, now);
    ParseDoneRoundTrip(id);
  }

  /** Posting `!ticket done <id>` in a tracked channel counts as a check-in;
      the ticket is marked done now and the author told so exactly when they
      have it in this channel, and otherwise told it was not found. */
  lemma HandleMessageDone(cfg: Config, botId: string, db: Database, m: Message, id: string, now: int)
    requires m.authorId != botId && m.channelId in cfg.trackedChannels
    requires m.content == "!ticket done " + id && IsTrimmed(id)
    ensures var r := HandleMessage(cfg, botId, db, m, now);
      var before := TicketsOf(db, m.authorId, m.channelId);
      && r.reply == Some(if id in before then TicketCompleted(id) else TicketNotFound(id))
      && TicketsOf(r.db, m.authorId, m.channelId)
         == (if id in before then before[id := before[id].(status := Done, completedAt := Some(now))] else before)
      && CheckInsOf(r.db, m.authorId, m.channelId) == CheckInsOf(db, m.authorId, m.channelId) + [now]
  {
    CommandHasPrefix(" done " + id);
    HandleMessageDispatch(cfg, botId, db, m, now);
    CheckInThenDone(db, cfg.trackedChannels, m, cfg.trackedChannels[m.channelId], id, now);
  }

  /** A check-in followed by `!ticket list`, alone or with anything after
      it, keeps the tickets and answers with them. */
  lemma CheckInThenList(db: Database, tracked: map<string, string>, m: Message, projectName: string,
                        rest: string, now: int)
    requires m.content == "!ticket list" || m.content == "!ticket list " + rest
    ensures var r := HandleTicketCommand(RecordCheckIn(db, m.authorId, m.channelId, projectName, now), tracked, m, now);
      var before := TicketsOf(db, m.authorId, m.channelId);
      && r.reply == Some(if |before| == 0 then NoTickets else TicketList(before))
      && TicketsOf(r.db, m.authorId, m.channelId) == before
      && CheckInsOf(r.db, m.authorId, m.channelId) == CheckInsOf(db, m.authorId, m.channelId) + [now]
  {
    var checkedIn := RecordCheckIn(db, m.authorId, m.channelId, projectName, now);
    assert TicketsOf(checkedIn, m.authorId, m.channelId) == TicketsOf(db, m.authorId, m.channelId);
    HandleList(checkedIn, tracked, m, rest, now);
  }

  /** Posting `!ticket list`, alone or with anything after it, in a
      tracked channel counts as a check-in,
      leaves the tickets alone and answers with them, or that there are
      none. */
  lemma HandleMessageList(cfg: Config, botId: string, db: Database, m: Message, rest: string, now: int)
    requires m.authorId != botId && m.channelId in cfg.trackedChannels
    requires m.content == "!ticket list" || m.content == "!ticket list " + rest
    ensures var r := HandleMessage(cfg, botId, db, m, now);
      var before := TicketsOf(db, m.authorId, m.channelId);
      && r.reply == Some(if |before| == 0 then NoTickets else TicketList(before))
      && TicketsOf(r.db, m.authorId, m.channelId) == before
      && CheckInsOf(r.db, m.authorId, m.channelId) == CheckInsOf(db, m.authorId, m.channelId) + [now]
  {
    CommandHasPrefix(m.content[|TicketPrefix|..]);
    HandleMessageDispatch(cfg, botId, db, m, now);
    CheckInThenList(db, cfg.trackedChannels, m, cfg.trackedChannels[m.channelId], rest, now);
  }

  /** Handles one chat message. The bot's own messages are ignored; a
      message in a tracked channel is a check-in for its author there, and
      is then run as a ticket command when it starts with `!ticket`. */
  function HandleMessage(cfg: Config, botId: string, db: Database, m: Message, now: int): (r: Outcome)
    ensures m.authorId == botId ==> r == Outcome(db, None)
    ensures m.channelId !in cfg.trackedChannels ==> r == Outcome(db, None)
    ensures m.authorId != botId ==>
      (m.channelId in cfg.trackedChannels
       <==> CheckInsOf(r.db, m.authorId, m.channelId) == CheckInsOf(db, m.authorId, m.channelId) + [now])
    ensures m.authorId != botId && m.channelId in cfg.trackedChannels ==>
      Lookup(r.db, m.authorId, m.channelId).Some? && Lookup(r.db, m.authorId, m.channelId).value.lastCheckIn == now
    ensures m.authorId != botId && m.channelId in cfg.trackedChannels ==>
      Lookup(r.db, m.authorId, m.channelId).value.projectName
      == (if Lookup(db, m.authorId, m.channelId).Some? then db[m.authorId][m.channelId].projectName
          else cfg.trackedChannels[m.channelId])
    ensures r.reply.Some? <==> m.authorId != botId && m.channelId in cfg.trackedChannels && TicketPrefix <= m.content
    ensures !(TicketPrefix <= m.content) ==> TicketsOf(r.db, m.authorId, m.channelId) == TicketsOf(db, m.authorId, m.channelId)
    ensures OthersUnchanged(db, r.db, m.authorId, m.channelId)
  {
    if m.authorId == botId then Outcome(db, None)
    else if m.channelId !in cfg.trackedChannels then Outcome(db, None)
    else
      var checkedIn := RecordCheckIn(db, m.authorId, m.channelId, cfg.trackedChannels[m.channelId], now);
      if TicketPrefix <= m.content then HandleTicketCommand(checkedIn, cfg.trackedChannels, m, now)
      else Outcome(checkedIn, None)
  }

  /** Ticket commands keep the store invariant. */
  lemma HandleTicketCommandValid(db: Database, tracked: map<string, string>, m: Message, now: int)
    requires Valid(db)
    ensures Valid(HandleTicketCommand(db, tracked, m, now).db)
  {
    match ParseTicketCommand(m.content)
    case CreateCmd(title, description) =>
      CreateTicketValid(db, tracked, m.authorId, m.channelId, title, description, now);
    case DoneCmd(id) =>
      CompleteTicketValid(db, m.authorId, m.channelId, id, now);
    case ListCmd =>
    case UsageCmd(kind) =>
    case UnknownCmd =>
  }

  /** Handling messages keeps the store invariant. */
  lemma HandleMessageValid(cfg: Config, botId: string, db: Database, m: Message, now: int)
    requires Valid(db)
    ensures Valid(HandleMessage(cfg, botId, db, m, now).db)
  {
    if m.authorId != botId && m.channelId in cfg.trackedChannels {
      var checkedIn := RecordCheckIn(db, m.authorId, m.channelId, cfg.trackedChannels[m.channelId], now);
      RecordCheckInValid(db, m.authorId, m.channelId, cfg.trackedChannels[m.channelId], now);
      if TicketPrefix <= m.content {
        HandleTicketCommandValid(checkedIn, cfg.trackedChannels, m, now);
      }
    }
  }
}

=== FILE: progress.dfy ===
/** What the `/stats` and `/progress` commands compute: per tracked channel,
    how many tickets are done out of how many, how many check-ins fall in
    the last week, and the ten-cell progress bar. */
module Progress {
  import opened Wrappers
  import opened Store

  // ---------------------------------------------------------------------------
  // Ticket counts

  datatype Counts = Counts(completed: nat, total: nat)

  /** The ids of the tickets whose status is done. */
  function DoneIds(tickets: map<string, Ticket>): (r: set<string>)
    ensures r <= tickets.Keys
    ensures forall k :: k in r <==> k in tickets && tickets[k].status == Done
  {
    set k | k in tickets && tickets[k].status == Done
  }

  /** A subset has no more elements than its superset. */
  lemma {:induction false} SubsetCard<T>(a: set<T>, b: set<T>)
    requires a <= b
    ensures |a| <= |b|
    decreases |b|
  {
    if b != {} {
      var x :| x in b;
      SubsetCard(a - {x}, b - {x});
    }
  }

  /** Done tickets out of all tickets; never more done than there are. */
  function TicketCounts(tickets: map<string, Ticket>): (r: Counts)
    ensures r.completed <= r.total
    ensures r.total == |tickets|
    ensures r.completed == 0 <==> forall k :: k in tickets ==> tickets[k].status != Done
    ensures r.completed == r.total <==> forall k :: k in tickets ==> tickets[k].status == Done
  {
    DoneCount(tickets);
    Counts(|DoneIds(tickets)|, |tickets|)
  }

  /** A subset as large as its superset is the whole superset. */
  lemma {:induction false} SameCardEqual<T>(a: set<T>, b: set<T>)
    requires a <= b && |a| == |b|
    ensures a == b
  {
    if a != b {
      var x :| x in b && x !in a;
      SubsetCard(a, b - {x});
    }
  }

  /** No ticket is done exactly when the done set is empty, and all are
      exactly when it is as large as the ticket map. */
  lemma DoneCount(tickets: map<string, Ticket>)
    ensures |DoneIds(tickets)| <= |tickets|
    ensures |DoneIds(tickets)| == 0 <==> forall k :: k in tickets ==> tickets[k].status != Done
    ensures |DoneIds(tickets)| == |tickets| <==> forall k :: k in tickets ==> tickets[k].status == Done
  {
    var done := DoneIds(tickets);
    SubsetCard(done, tickets.Keys);
    if |done| == |tickets.Keys| {
      SameCardEqual(done, tickets.Keys);
    }
    if done != {} {
      var k :| k in done;
    }
    if forall k :: k in tickets ==> tickets[k].status == Done {
      assert done == tickets.Keys;
    }
  }

  /** The counting loop of the stats and progress commands: the total is
      the size of the ticket map, and every ticket whose status is done
      adds one to the completed count. */
  method CountTickets(tickets: map<string, Ticket>) returns (completed: nat, total: nat)
    ensures Counts(completed, total) == TicketCounts(tickets)
  {
    total := |tickets|;
    completed := 0;
    var rest := tickets.Keys;
    while rest != {}
      invariant rest <= tickets.Keys
      invariant completed == |DoneIds(tickets) - rest|
      decreases |rest|
    {
      var k :| k in rest;
      var rest' := rest - {k};
      if tickets[k].status == Done {
        assert DoneIds(tickets) - rest' == (DoneIds(tickets) - rest) + {k};
        completed := completed + 1;
      } else {
        assert DoneIds(tickets) - rest' == DoneIds(tickets) - rest;
      }
      rest := rest';
    }
    assert DoneIds(tickets) - rest == DoneIds(tickets);
  }

  /** Completing an open ticket adds one to the done count; completing one
      already done changes nothing; the total never changes. */
  lemma CompleteTicketCounts(db: Database, user: string, channel: string, id: string, now: int)
    ensures var r := CompleteTicket(db, user, channel, id, now);
      var before := TicketCounts(TicketsOf(db, user, channel));
      var after := TicketCounts(TicketsOf(r.db, user, channel));
      && after.total == before.total
      && after.completed == before.completed
         + (if r.ok && TicketsOf(db, user, channel)[id].status != Done then 1 else 0)
  {
    var r := CompleteTicket(db, user, channel, id, now);
    if r.ok {
      var before := TicketsOf(db, user, channel);
      var after := TicketsOf(r.db, user, channel);
      assert |after.Keys| == |before.Keys|;
      if before[id].status == Done {
        assert DoneIds(after) == DoneIds(before);
      } else {
        assert DoneIds(after) == DoneIds(before) + {id};
      }
    }
  }

  /** On well-numbered tickets, opening a ticket adds one to the total and
      leaves the done count alone. */
  lemma CreateTicketCounts(db: Database, tracked: map<string, string>, user: string, channel: string,
                           title: string, description: string, now: int)
    requires WellNumbered(TicketsOf(db, user, channel))
    ensures var r := CreateTicket(db, tracked, user, channel, title, description, now);
      var before := TicketCounts(TicketsOf(db, user, channel));
      var after := TicketCounts(TicketsOf(r.db, user, channel));
      after == Counts(before.completed, before.total + 1)
  {
    var r := CreateTicket(db, tracked, user, channel, title, description, now);
    CreateTicketFresh(db, tracked, user, channel, title, description, now);
    var before := TicketsOf(db, user, channel);
    var after := TicketsOf(r.db, user, channel);
    assert after[r.id].status == Open;
    assert DoneIds(after) == DoneIds(before);
  }

  // ---------------------------------------------------------------------------
  // Check-ins in the last week

  /** How many check-ins fall strictly after `since`. */
  function CheckInsAfter(checkIns: seq<int>, since: int): (r: nat)
    ensures r <= |checkIns|
  {
    if |checkIns| == 0 then 0
    else CheckInsAfter(checkIns[..|checkIns| - 1], since) + (if checkIns[|checkIns| - 1] > since then 1 else 0)
  }

  /** Counting from a later instant counts no more check-ins. */
  lemma {:induction false} CheckInsAfterAntitone(checkIns: seq<int>, since: int, later: int)
    requires since <= later
    ensures CheckInsAfter(checkIns, later) <= CheckInsAfter(checkIns, since)
    decreases |checkIns|
  {
    if |checkIns| > 0 {
      CheckInsAfterAntitone(checkIns[..|checkIns| - 1], since, later);
    }
  }

  /** The count is everything when every check-in is recent and nothing
      when none is. */
  lemma {:induction false} CheckInsAfterBounds(checkIns: seq<int>, since: int)
    ensures (forall i :: 0 <= i < |checkIns| ==> checkIns[i] > since) ==> CheckInsAfter(checkIns, since) == |checkIns|
    ensures (forall i :: 0 <= i < |checkIns| ==> checkIns[i] <= since) ==> CheckInsAfter(checkIns, since) == 0
    decreases |checkIns|
  {
    if |checkIns| > 0 {
      var init := checkIns[..|checkIns| - 1];
      assert forall i :: 0 <= i < |init| ==> init[i] == checkIns[i];
      CheckInsAfterBounds(init, since);
    }
  }

  /** A check-in now counts towards the last week whenever the week
      started before now; all other counts stay as they were. */
  lemma CheckInCountsThisWeek(db: Database, user: string, channel: string, projectName: string, now: int, weekAgo: int)
    ensures var r := RecordCheckIn(db, user, channel, projectName, now);
      CheckInsAfter(CheckInsOf(r, user, channel), weekAgo)
      == CheckInsAfter(CheckInsOf(db, user, channel), weekAgo) + (if now > weekAgo then 1 else 0)
  {
    var r := RecordCheckIn(db, user, channel, projectName, now);
    var s := CheckInsOf(r, user, channel);
    assert s[..|s| - 1] == CheckInsOf(db, user, channel);
  }

  // ---------------------------------------------------------------------------
  // The /stats and /progress summaries

  datatype ChannelStats = ChannelStats(projectName: string, counts: Counts, checkInsLastWeek: nat)

  /** The summary line of one channel, given the start of the last week. */
  function StatsOf(a: UserActivity, weekAgo: int): ChannelStats
  {
    ChannelStats(a.projectName, TicketCounts(a.tickets), CheckInsAfter(a.checkIns, weekAgo))
  }

  /** `/stats`: nothing for a user without tracked activity, and otherwise
      one summary per channel the user has activity in. */
  function Stats(db: Database, user: string, weekAgo: int): (r: Option<map<string, ChannelStats>>)
    ensures r.None? <==> |ChannelsOf(db, user)| == 0
    ensures r.Some? ==> r.value.Keys == ChannelsOf(db, user).Keys
    ensures r.Some? ==> forall c :: c in r.value ==>
      && r.value[c].projectName == ChannelsOf(db, user)[c].projectName
      && r.value[c].counts == TicketCounts(TicketsOf(db, user, c))
      && r.value[c].checkInsLastWeek == CheckInsAfter(CheckInsOf(db, user, c), weekAgo)
    ensures r.Some? ==> forall c :: c in r.value ==>
      && r.value[c].counts.completed <= r.value[c].counts.total
      && r.value[c].checkInsLastWeek <= |CheckInsOf(db, user, c)|
  {
    var channels := ChannelsOf(db, user);
    if |channels| == 0 then None
    else Some(map c | c in channels :: StatsOf(channels[c], weekAgo))
  }

  /** `/progress`: nothing for a user without tracked activity, and
      otherwise the counts of every channel holding at least one ticket. */
  function ProgressOf(db: Database, user: string): (r: Option<map<string, Counts>>)
    ensures r.None? <==> |ChannelsOf(db, user)| == 0
    ensures r.Some? ==> forall c :: c in r.value <==> c in ChannelsOf(db, user) && |TicketsOf(db, user, c)| > 0
    ensures r.Some? ==> forall c :: c in r.value ==> r.value[c] == TicketCounts(TicketsOf(db, user, c))
    ensures r.Some? ==> forall c :: c in r.value ==> 0 < r.value[c].total && r.value[c].completed <= r.value[c].total
  {
    var channels := ChannelsOf(db, user);
    if |channels| == 0 then None
    else Some(map c | c in channels && |channels[c].tickets| > 0 :: TicketCounts(channels[c].tickets))
  }

  /** After a check-in the user has stats, the channel's last-week count
      grows by one when the week started before now, its ticket counts
      stay, and every other channel's summary is unchanged. */
  lemma CheckInUpdatesStats(db: Database, user: string, channel: string, projectName: string, now: int, weekAgo: int)
    ensures var r := RecordCheckIn(db, user, channel, projectName, now);
      var after := Stats(r, user, weekAgo);
      && after.Some? && channel in after.value
      && after.value[channel].counts == TicketCounts(TicketsOf(db, user, channel))
      && after.value[channel].checkInsLastWeek
         == CheckInsAfter(CheckInsOf(db, user, channel), weekAgo) + (if now > weekAgo then 1 else 0)
      && forall c :: c != channel && c in ChannelsOf(db, user) ==>
           c in after.value && after.value[c] == Stats(db, user, weekAgo).value[c]
  {
    var r := RecordCheckIn(db, user, channel, projectName, now);
    CheckInCountsThisWeek(db, user, channel, projectName, now, weekAgo);
    assert channel in ChannelsOf(r, user);
    forall c | c != channel && c in ChannelsOf(db, user)
      ensures c in Stats(r, user, weekAgo).value && Stats(r, user, weekAgo).value[c] == Stats(db, user, weekAgo).value[c]
    {
      assert Lookup(r, user, c) == Lookup(db, user, c);
    }
  }

  /** After opening a ticket in a channel the user shows progress there. */
  lemma CreateTicketShowsProgress(db: Database, tracked: map<string, string>, user: string, channel: string,
                                  title: string, description: string, now: int)
    ensures var r := CreateTicket(db, tracked, user, channel, title, description, now);
      ProgressOf(r.db, user).Some? && channel in ProgressOf(r.db, user).value
  {
    var r := CreateTicket(db, tracked, user, channel, title, description, now);
    assert channel in ChannelsOf(r.db, user);
    assert r.id in TicketsOf(r.db, user, channel);
  }

  // ---------------------------------------------------------------------------
  // The progress bar

  const BarLength := 10
  const FullCell := '\U{2588}'
  const EmptyCell := '\U{2591}'

  function Repeat(c: char, n: nat): (r: string)
    ensures |r| == n && forall i :: 0 <= i < n ==> r[i] == c
  {
    if n == 0 then [] else [c] + Repeat(c, n - 1)
  }

  /** The number of full cells: the filled count, kept within the bar. */
  function Clamp(filledBlocks: int): (r: nat)
    ensures r <= BarLength
    ensures 0 <= filledBlocks <= BarLength ==> r == filledBlocks
  {
    if filledBlocks < 0 then 0 else if filledBlocks > BarLength then BarLength else filledBlocks
  }

  /** The bar as a whole: full cells first, then empty ones, in brackets. */
  function Bar(filledBlocks: int): string
  {
    "[" + Repeat(FullCell, Clamp(filledBlocks)) + Repeat(EmptyCell, BarLength - Clamp(filledBlocks)) + "]"
  }

  /** Cell `i` of the bar, counted from zero. */
  function Cell(i: int, filledBlocks: int): char
  {
    if i < filledBlocks then FullCell else EmptyCell
  }

  /** Builds the bar one cell at a time, as `createProgressBar` does, from
      the already truncated number of full cells. */
  method CreateProgressBar(filledBlocks: int) returns (bar: string)
    ensures bar == Bar(filledBlocks)
  {
    bar := "[";
    var i := 0;
    while i < BarLength
      invariant 0 <= i <= BarLength
      invariant |bar| == i + 1 && bar[0] == '['
      invariant forall j :: 0 <= j < i ==> bar[j + 1] == Cell(j, filledBlocks)
    {
      bar := bar + [Cell(i, filledBlocks)];
      i := i + 1;
    }
    bar := bar + "]";
    BarCells(bar, filledBlocks);
  }

  /** A bracketed string of ten cells, each full exactly below the filled
      count, is the bar. */
  lemma BarCells(bar: string, filledBlocks: int)
    requires |bar| == BarLength + 2 && bar[0] == '[' && bar[BarLength + 1] == ']'
    requires forall j :: 0 <= j < BarLength ==> bar[j + 1] == Cell(j, filledBlocks)
    ensures bar == Bar(filledBlocks)
  {
    var b := Bar(filledBlocks);
    var n := Clamp(filledBlocks);
    assert |b| == BarLength + 2;
    forall j | 0 <= j < BarLength
      ensures b[j + 1] == Cell(j, filledBlocks)
    {
      if j < n {
        assert b[j + 1] == Repeat(FullCell, n)[j];
      } else {
        assert b[j + 1] == Repeat(EmptyCell, BarLength - n)[j - n];
      }
    }
    forall k | 0 <= k < |bar|
      ensures bar[k] == b[k]
    {
      if 0 < k < BarLength + 1 {
        var j := k - 1;
        assert bar[j + 1] == Cell(j, filledBlocks);
        assert b[j + 1] == Cell(j, filledBlocks);
      }
    }
  }

  /** The bar shows exactly the clamped number of full cells and the rest
      empty. */
  lemma BarCounts(filledBlocks: int)
    ensures |Bar(filledBlocks)| == BarLength + 2
    ensures multiset(Bar(filledBlocks))[FullCell] == Clamp(filledBlocks)
    ensures multiset(Bar(filledBlocks))[EmptyCell] == BarLength - Clamp(filledBlocks)
  {
    var n := Clamp(filledBlocks);
    RepeatCount(FullCell, n, EmptyCell);
    RepeatCount(EmptyCell, BarLength - n, FullCell);
  }

  lemma {:induction false} RepeatCount(c: char, n: nat, other: char)
    requires other != c
    ensures multiset(Repeat(c, n))[c] == n && multiset(Repeat(c, n))[other] == 0
  {
    if n > 0 {
      RepeatCount(c, n - 1, other);
      assert Repeat(c, n) == [c] + Repeat(c, n - 1);
    }
  }
}

=== FILE: reminders.dfy ===
/** The daily reminder: an hourly tick fires inside a five-minute window
    after the configured time of day, and then names every (user, channel)
    pair whose last check-in is older than the configured frequency. */
module Reminders {
  import opened Wrappers
  import opened Strings
  import opened Store

  const SecondsPerHour := 3600

  /** The configured reminder time, e.g. "09:00", is only used when it has
      exactly one colon. */
  predicate WellFormedReminderTime(reminderTime: string)
  {
    |Split(reminderTime, ':')| == 2
  }

  /** Whether a tick at `nowHour:nowMinute` sends reminders, given the hour
      and minute read from the reminder time. */
  function ReminderFires(reminderTime: string, hour: int, minute: int, nowHour: int, nowMinute: int): (r: bool)
    ensures r <==> multiset(reminderTime)[':'] == 1 && nowHour == hour && minute <= nowMinute < minute + 5
  {
    SplitCount(reminderTime, ':');
    WellFormedReminderTime(reminderTime) && nowHour == hour && nowMinute < minute + 5 && nowMinute >= minute
  }

  /** More than `frequencyHours` hours have passed since the last check-in. */
  predicate Overdue(a: UserActivity, now: int, frequencyHours: int)
  {
    now - a.lastCheckIn > frequencyHours * SecondsPerHour
  }

  /** The (user, channel) pairs that get a reminder; none when no reminder
      channel is configured. */
  function DueReminders(cfg: Config, db: Database, now: int): (r: set<(string, string)>)
    ensures forall u, c :: (u, c) in r <==>
      cfg.reminderChannelId != "" && Lookup(db, u, c).Some? && Overdue(Lookup(db, u, c).value, now, cfg.checkInFrequency)
  {
    if cfg.reminderChannelId == "" then {}
    else set u, c | u in db && c in db[u] && Overdue(db[u][c], now, cfg.checkInFrequency) :: (u, c)
  }

  /** What one tick of the reminder loop sends. */
  function Tick(cfg: Config, db: Database, hour: int, minute: int, nowHour: int, nowMinute: int, now: int): (r: set<(string, string)>)
    ensures r <= DueReminders(cfg, db, now)
    ensures r != {} ==> ReminderFires(cfg.reminderTime, hour, minute, nowHour, nowMinute)
    ensures ReminderFires(cfg.reminderTime, hour, minute, nowHour, nowMinute) ==> r == DueReminders(cfg, db, now)
  {
    if ReminderFires(cfg.reminderTime, hour, minute, nowHour, nowMinute) then DueReminders(cfg, db, now) else {}
  }

  /** Outside the window nobody is reminded, however long overdue. */
  lemma NoReminderOutsideWindow(cfg: Config, db: Database, hour: int, minute: int, nowHour: int, nowMinute: int, now: int)
    requires nowHour != hour || nowMinute < minute || nowMinute >= minute + 5
    ensures Tick(cfg, db, hour, minute, nowHour, nowMinute, now) == {}
  {
  }

  /** A check-in takes exactly its own pair off the reminder list. */
  lemma CheckInClearsReminder(cfg: Config, db: Database, user: string, channel: string, projectName: string, now: int)
    requires cfg.checkInFrequency >= 0
    ensures DueReminders(cfg, RecordCheckIn(db, user, channel, projectName, now), now)
            == DueReminders(cfg, db, now) - {(user, channel)}
  {
    var db' := RecordCheckIn(db, user, channel, projectName, now);
    forall u, c
      ensures (u, c) in DueReminders(cfg, db', now) <==> (u, c) in DueReminders(cfg, db, now) - {(user, channel)}
    {
      if u != user || c != channel {
        assert Lookup(db', u, c) == Lookup(db, u, c);
      }
    }
  }

  /** Changes confined to one (user, channel) pair that leave that pair's
      reminder status alone leave the whole reminder list alone. */
  lemma DueRemindersFrame(cfg: Config, db: Database, db': Database, user: string, channel: string, now: int)
    requires OthersUnchanged(db, db', user, channel)
    requires (user, channel) in DueReminders(cfg, db', now) <==> (user, channel) in DueReminders(cfg, db, now)
    ensures DueReminders(cfg, db', now) == DueReminders(cfg, db, now)
  {
    forall u, c
      ensures (u, c) in DueReminders(cfg, db', now) <==> (u, c) in DueReminders(cfg, db, now)
    {
      if u != user || c != channel {
        assert Lookup(db', u, c) == Lookup(db, u, c);
      }
    }
  }

  /** Opening a ticket never changes who is reminded: an existing activity
      keeps its last check-in, and a new one starts checked in now. */
  lemma CreateTicketKeepsReminders(cfg: Config, db: Database, user: string, channel: string,
                                   title: string, description: string, now: int)
    requires cfg.checkInFrequency >= 0
    ensures DueReminders(cfg, CreateTicket(db, cfg.trackedChannels, user, channel, title, description, now).db, now)
            == DueReminders(cfg, db, now)
  {
    var created := CreateTicket(db, cfg.trackedChannels, user, channel, title, description, now).db;
    var before := TicketBase(db, cfg.trackedChannels, user, channel, now);
    assert Lookup(created, user, channel).value.lastCheckIn == before.lastCheckIn;
    DueRemindersFrame(cfg, db, created, user, channel, now);
  }

  /** Completing a ticket never changes who is reminded. */
  lemma CompleteTicketKeepsReminders(cfg: Config, db: Database, user: string, channel: string, id: string, now: int)
    ensures DueReminders(cfg, CompleteTicket(db, user, channel, id, now).db, now) == DueReminders(cfg, db, now)
  {
    var completed := CompleteTicket(db, user, channel, id, now);
    if completed.ok {
      assert Lookup(completed.db, user, channel).value.lastCheckIn == Lookup(db, user, channel).value.lastCheckIn;
    }
    DueRemindersFrame(cfg, db, completed.db, user, channel, now);
  }

  /** Once overdue, a pair stays overdue as time passes without a check-in. */
  lemma DueRemindersGrow(cfg: Config, db: Database, now: int, later: int)
    requires now <= later
    ensures DueReminders(cfg, db, now) <= DueReminders(cfg, db, later)
  {
  }

  /** "09:00" holds exactly one colon. */
  lemma NineOClockWellFormed()
    ensures multiset("09:00")[':'] == 1
  {
    assert "09:00" == "09" + [':'] + "00";
  }

  /** In a store holding one overdue activity, that pair alone is due. */
  lemma SingleOverdue(cfg: Config, user: string, channel: string, a: UserActivity, now: int)
    requires cfg.reminderChannelId != "" && Overdue(a, now, cfg.checkInFrequency)
    ensures DueReminders(cfg, map[user := map[channel := a]], now) == {(user, channel)}
  {
    var db := map[user := map[channel := a]];
    forall u, c
      ensures (u, c) in DueReminders(cfg, db, now) <==> (u, c) == (user, channel)
    {
      assert Lookup(db, u, c).Some? <==> u == user && c == channel;
    }
  }

  /** With the reminder at "09:00" and a 24-hour frequency, someone whose
      last check-in was 30 hours ago gets exactly one reminder on a tick
      between 09:00 and 09:04. */
  lemma ThirtyHoursOverdue(user: string, channel: string, a: UserActivity, nowMinute: int, now: int)
    requires 0 <= nowMinute < 5
    requires now - a.lastCheckIn == 30 * SecondsPerHour
    ensures Tick(Config(map[], "reminders", 24, "09:00"), map[user := map[channel := a]], 9, 0, 9, nowMinute, now)
            == {(user, channel)}
  {
    var cfg := Config(map[], "reminders", 24, "09:00");
    NineOClockWellFormed();
    assert ReminderFires(cfg.reminderTime, 9, 0, 9, nowMinute);
    assert cfg.reminderChannelId != "" by {
      assert cfg.reminderChannelId[0] == 'r';
    }
    SingleOverdue(cfg, user, channel, a, now);
  }
}

=== FILE: store.dfy ===
/** The bot's in-memory activity and ticket store: for every user and every
    tracked channel, the time of the last check-in, the list of all check-ins
    and the tickets the user opened there. Each operation is one atomic state
    transition taking the current time `now` (seconds) as an argument. */
module Store {
  import opened Wrappers
  import opened Strings

  /** A ticket's status. `InProgress` exists in the data model but no
      operation ever assigns it. */
  datatype Status = Open | InProgress | Done

  /** `completedAt` is `None` while Go's field holds the zero time. */
  datatype Ticket = Ticket(
    id: string,
    title: string,
    description: string,
    status: Status,
    createdAt: int,
    completedAt: Option<int>,
    projectName: string)

  datatype UserActivity = UserActivity(
    lastCheckIn: int,
    checkIns: seq<int>,
    tickets: map<string, Ticket>,
    projectName: string)

  /** User id, then channel id, to that user's activity in that channel. */
  type Database = map<string, map<string, UserActivity>>

  /** The configuration the core reads: which channels are tracked (channel id
      to project name), where reminders go, the check-in frequency in hours
      and the reminder time of day. */
  datatype Config = Config(
    trackedChannels: map<string, string>,
    reminderChannelId: string,
    checkInFrequency: int,
    reminderTime: string)

  function Lookup(db: Database, user: string, channel: string): Option<UserActivity>
  {
    if user in db && channel in db[user] then Some(db[user][channel]) else None
  }

  /** The channels a user has activity in; empty for an unknown user. */
  function ChannelsOf(db: Database, user: string): map<string, UserActivity>
  {
    if user in db then db[user] else map[]
  }

  /** The tickets of a user in a channel; empty when either is unknown. */
  function TicketsOf(db: Database, user: string, channel: string): map<string, Ticket>
  {
    if user in db && channel in db[user] then db[user][channel].tickets else map[]
  }

  /** The check-ins of a user in a channel; empty when either is unknown. */
  function CheckInsOf(db: Database, user: string, channel: string): seq<int>
  {
    if user in db && channel in db[user] then db[user][channel].checkIns else []
  }

  /** Indexing a Go map with a missing key yields the zero value, so an
      untracked channel has the empty project name. */
  function ProjectFor(tracked: map<string, string>, channel: string): string
  {
    if channel in tracked then tracked[channel] else ""
  }

  /** Stores `a` as the activity of `user` in `channel`, creating the user's
      channel map when it is missing. Nothing else changes. */
  function Put(db: Database, user: string, channel: string, a: UserActivity): (r: Database)
    ensures Lookup(r, user, channel) == Some(a)
    ensures r.Keys == db.Keys + {user}
    ensures r[user].Keys == ChannelsOf(db, user).Keys + {channel}
    ensures forall u, c :: (u != user || c != channel) ==> Lookup(r, u, c) == Lookup(db, u, c)
  {
    db[user := ChannelsOf(db, user)[channel := a]]
  }

  /** Every other (user, channel) pair looks the same in `db'` as in `db`. */
  ghost predicate OthersUnchanged(db: Database, db': Database, user: string, channel: string)
  {
    forall u, c :: (u != user || c != channel) ==> Lookup(db', u, c) == Lookup(db, u, c)
  }

  // ---------------------------------------------------------------------------
  // Ticket numbering

  /** The decimal strings of 1 through n. */
  function IdRange(n: nat): set<string>
  {
    set i: nat | 1 <= i <= n :: Decimal(i)
  }

  /** The invariant ticket creation relies on: with n tickets, the keys are
      exactly "1" .. "n", and every ticket records its own key as its id. */
  ghost predicate WellNumbered(tickets: map<string, Ticket>)
  {
    && tickets.Keys == IdRange(|tickets|)
    && forall k :: k in tickets ==> tickets[k].id == k
  }

  /** The invariant of the whole store. */
  ghost predicate Valid(db: Database)
  {
    forall u, c :: Lookup(db, u, c).Some? ==> WellNumbered(Lookup(db, u, c).value.tickets)
  }

  /** The next id is not among the first n, and adding it extends the range. */
  lemma IdRangeNext(n: nat)
    ensures Decimal(n + 1) !in IdRange(n)
    ensures IdRange(n + 1) == IdRange(n) + {Decimal(n + 1)}
  {
    if Decimal(n + 1) in IdRange(n) {
      var i: nat :| 1 <= i <= n && Decimal(i) == Decimal(n + 1);
      DecimalInjective(i, n + 1);
      assert false;
    }
    forall i: nat | 1 <= i <= n + 1
      ensures Decimal(i) in IdRange(n) + {Decimal(n + 1)}
    {
      if i <= n {
        assert Decimal(i) in IdRange(n);
      }
    }
  }

  /** Adding a ticket under the next id to well-numbered tickets adds a new
      key and keeps them well numbered. */
  lemma WellNumberedAdd(tickets: map<string, Ticket>, t: Ticket)
    requires WellNumbered(tickets) && t.id == Decimal(|tickets| + 1)
    ensures t.id !in tickets
    ensures |tickets[t.id := t]| == |tickets| + 1
    ensures WellNumbered(tickets[t.id := t])
  {
    var after := tickets[t.id := t];
    IdRangeNext(|tickets|);
    assert after.Keys == tickets.Keys + {t.id};
    assert |after.Keys| == |tickets.Keys| + 1;
  }

  /** No id in the range "1" .. "n" starts with a zero. */
  lemma IdRangeNoLeadingZero(n: nat, id: string)
    requires |id| > 0 && id[0] == '0'
    ensures id !in IdRange(n)
  {
  }

  // ---------------------------------------------------------------------------
  // createTicket

  /** The activity `createTicket` starts from for a channel that has none. */
  function NewTicketActivity(tracked: map<string, string>, channel: string, now: int): UserActivity
  {
    UserActivity(now, [], map[], ProjectFor(tracked, channel))
  }

  /** The activity `createTicket` adds a ticket to. */
  function TicketBase(db: Database, tracked: map<string, string>, user: string, channel: string, now: int): UserActivity
  {
    Lookup(db, user, channel).GetOr(NewTicketActivity(tracked, channel, now))
  }

  datatype Created = Created(db: Database, id: string)

  /** Opens a ticket for `user` in `channel`, first creating an activity for
      them there if there is none. The id is the decimal form of the number of
      tickets already there plus one; the new ticket is open, created now, and
      belongs to the activity's project. */
  function CreateTicket(db: Database, tracked: map<string, string>, user: string, channel: string,
                        title: string, description: string, now: int): (r: Created)
    ensures var before := TicketBase(db, tracked, user, channel, now);
      && r.id == Decimal(|before.tickets| + 1)
      && Lookup(r.db, user, channel)
         == Some(before.(tickets := before.tickets[r.id := Ticket(r.id, title, description, Open, now, None, before.projectName)]))
    ensures r.db.Keys == db.Keys + {user}
    ensures r.db[user].Keys == ChannelsOf(db, user).Keys + {channel}
    ensures OthersUnchanged(db, r.db, user, channel)
  {
    var a := TicketBase(db, tracked, user, channel, now);
    var id := Decimal(|a.tickets| + 1);
    var t := Ticket(id, title, description, Open, now, None, a.projectName);
    var a' := a.(tickets := a.tickets[id := t]);
    Created(Put(db, user, channel, a'), id)
  }

  /** The tickets after `createTicket` are the earlier ones with the new
      ticket stored under the new id. */
  lemma CreateTicketTickets(db: Database, tracked: map<string, string>, user: string, channel: string,
                            title: string, description: string, now: int)
    ensures var r := CreateTicket(db, tracked, user, channel, title, description, now);
      var project := TicketBase(db, tracked, user, channel, now).projectName;
      TicketsOf(r.db, user, channel)
      == TicketsOf(db, user, channel)[r.id := Ticket(r.id, title, description, Open, now, None, project)]
  {
    assert TicketBase(db, tracked, user, channel, now).tickets == TicketsOf(db, user, channel);
  }

  /** On well-numbered tickets `createTicket` never overwrites: the new id is
      fresh, every earlier ticket survives unchanged, and the tickets stay
      well numbered with one more of them. */
  lemma CreateTicketFresh(db: Database, tracked: map<string, string>, user: string, channel: string,
                          title: string, description: string, now: int)
    requires WellNumbered(TicketsOf(db, user, channel))
    ensures var r := CreateTicket(db, tracked, user, channel, title, description, now);
      var before := TicketsOf(db, user, channel);
      var after := TicketsOf(r.db, user, channel);
      && r.id !in before
      && r.id == Decimal(|before| + 1)
      && |after| == |before| + 1
      && (forall k :: k in before ==> k in after && after[k] == before[k])
      && WellNumbered(after)
  {
    var r := CreateTicket(db, tracked, user, channel, title, description, now);
    var base := TicketBase(db, tracked, user, channel, now);
    assert base.tickets == TicketsOf(db, user, channel);
    var t := Ticket(r.id, title, description, Open, now, None, base.projectName);
    assert TicketsOf(r.db, user, channel) == base.tickets[r.id := t];
    WellNumberedAdd(base.tickets, t);
  }

  /** For a pair with no activity yet, `createTicket` starts one that counts
      as checked in now, with no check-ins and the tracked channel's project
      (empty when the channel is not tracked), holding the single ticket
      "1". */
  lemma CreateTicketNewActivity(db: Database, tracked: map<string, string>, user: string, channel: string,
                                title: string, description: string, now: int)
    requires Lookup(db, user, channel).None?
    ensures var r := CreateTicket(db, tracked, user, channel, title, description, now);
      && r.id == "1"
      && Lookup(r.db, user, channel).Some?
      && var a := Lookup(r.db, user, channel).value;
      && a.lastCheckIn == now
      && a.checkIns == []
      && a.projectName == ProjectFor(tracked, channel)
      && a.tickets.Keys == {"1"}
      && a.tickets["1"] == Ticket("1", title, description, Open, now, None, ProjectFor(tracked, channel))
  {
    assert Decimal(1) == "1";
  }

  /** Without the invariant the fresh id can collide: a channel whose only
      ticket is "2" gets its ticket "2" replaced. */
  lemma CreateTicketOverwritesWithoutInvariant(old2: Ticket, now: int)
    ensures var db := map["u" := map["c" := UserActivity(0, [], map["2" := old2], "p")]];
      var r := CreateTicket(db, map[], "u", "c", "t", "", now);
      && !WellNumbered(TicketsOf(db, "u", "c"))
      && r.id == "2"
      && |TicketsOf(r.db, "u", "c")| == 1
      && TicketsOf(r.db, "u", "c")["2"] == Ticket("2", "t", "", Open, now, None, "p")
  {
    var db := map["u" := map["c" := UserActivity(0, [], map["2" := old2], "p")]];
    assert Decimal(1) == "1";
    assert Decimal(2) == "2";
    assert "1" in IdRange(1);
    assert "2" !in IdRange(1);
    var r := CreateTicket(db, map[], "u", "c", "t", "", now);
    assert TicketsOf(r.db, "u", "c").Keys == {"2"};
  }

  // ---------------------------------------------------------------------------
  // completeTicket

  datatype Completed = Completed(db: Database, ok: bool)

  /** Marks a ticket done. Fails, changing nothing, when the user, the
      channel or the ticket id is unknown; on success only that ticket's
      status and completion time change. */
  function CompleteTicket(db: Database, user: string, channel: string, id: string, now: int): (r: Completed)
    ensures r.ok <==> Lookup(db, user, channel).Some? && id in Lookup(db, user, channel).value.tickets
    ensures !r.ok ==> r.db == db
    ensures r.ok ==>
      var before := Lookup(db, user, channel).value;
      && r.db.Keys == db.Keys
      && r.db[user].Keys == db[user].Keys
      && Lookup(r.db, user, channel).Some?
      && var after := Lookup(r.db, user, channel).value;
      && after.lastCheckIn == before.lastCheckIn
      && after.checkIns == before.checkIns
      && after.projectName == before.projectName
      && after.tickets.Keys == before.tickets.Keys
      && after.tickets[id] == before.tickets[id].(status := Done, completedAt := Some(now))
      && forall k :: k in before.tickets && k != id ==> after.tickets[k] == before.tickets[k]
    ensures OthersUnchanged(db, r.db, user, channel)
  {
    if user !in db then Completed(db, false)
    else if channel !in db[user] then Completed(db, false)
    else
      var a := db[user][channel];
      if id !in a.tickets then Completed(db, false)
      else
        var t := a.tickets[id].(status := Done, completedAt := Some(now));
        Completed(Put(db, user, channel, a.(tickets := a.tickets[id := t])), true)
  }

  /** On well-numbered tickets, completing succeeds exactly for the ids
      "1" .. "n" of an existing activity, and leaves the tickets well
      numbered. */
  lemma CompleteTicketWellNumbered(db: Database, user: string, channel: string, id: string, now: int)
    requires Lookup(db, user, channel).Some? ==> WellNumbered(Lookup(db, user, channel).value.tickets)
    ensures var r := CompleteTicket(db, user, channel, id, now);
      && (r.ok <==> Lookup(db, user, channel).Some? && id in IdRange(|TicketsOf(db, user, channel)|))
      && (r.ok ==> WellNumbered(TicketsOf(r.db, user, channel)))
  {
    var r := CompleteTicket(db, user, channel, id, now);
    if r.ok {
      var before := TicketsOf(db, user, channel);
      var after := TicketsOf(r.db, user, channel);
      assert |after.Keys| == |before.Keys|;
    }
  }

  /** An id with a leading zero, such as "01", never names a ticket, so
      completing it fails on well-numbered tickets. */
  lemma CompleteLeadingZeroFails(db: Database, user: string, channel: string, id: string, now: int)
    requires Lookup(db, user, channel).Some? ==> WellNumbered(Lookup(db, user, channel).value.tickets)
    requires |id| > 0 && id[0] == '0'
    ensures !CompleteTicket(db, user, channel, id, now).ok
  {
    CompleteTicketWellNumbered(db, user, channel, id, now);
    IdRangeNoLeadingZero(|TicketsOf(db, user, channel)|, id);
  }

  // ---------------------------------------------------------------------------
  // recordCheckIn

  /** Records a check-in now: the last check-in becomes `now` and `now` is
      appended to the check-ins. An existing activity keeps its tickets and
      project; a new one starts with no tickets and the given project. */
  function RecordCheckIn(db: Database, user: string, channel: string, projectName: string, now: int): (r: Database)
    ensures Lookup(r, user, channel).Some?
    ensures var after := Lookup(r, user, channel).value;
      && after.lastCheckIn == now
      && after.checkIns == CheckInsOf(db, user, channel) + [now]
      && after.tickets == TicketsOf(db, user, channel)
      && after.projectName == (if Lookup(db, user, channel).Some? then db[user][channel].projectName else projectName)
    ensures r.Keys == db.Keys + {user}
    ensures r[user].Keys == ChannelsOf(db, user).Keys + {channel}
    ensures OthersUnchanged(db, r, user, channel)
  {
    var a := Lookup(db, user, channel).GetOr(UserActivity(0, [], map[], projectName));
    Put(db, user, channel, a.(lastCheckIn := now, checkIns := a.checkIns + [now]))
  }

  /** Records one check-in per timestamp, in order. */
  function RecordCheckIns(db: Database, user: string, channel: string, projectName: string, times: seq<int>): Database
    decreases |times|
  {
    if |times| == 0 then db
    else RecordCheckIns(RecordCheckIn(db, user, channel, projectName, times[0]), user, channel, projectName, times[1..])
  }

  /** After a run of check-ins the history has grown by exactly those times,
      in order, and the last check-in is the last of them; other activities
      are untouched. */
  lemma {:induction false} RecordCheckInsHistory(db: Database, user: string, channel: string, projectName: string, times: seq<int>)
    requires |times| > 0
    ensures var r := RecordCheckIns(db, user, channel, projectName, times);
      && Lookup(r, user, channel).Some?
      && Lookup(r, user, channel).value.lastCheckIn == times[|times| - 1]
      && CheckInsOf(r, user, channel) == CheckInsOf(db, user, channel) + times
      && TicketsOf(r, user, channel) == TicketsOf(db, user, channel)
      && OthersUnchanged(db, r, user, channel)
    decreases |times|
  {
    var db1 := RecordCheckIn(db, user, channel, projectName, times[0]);
    if |times| == 1 {
      assert times == [times[0]];
    } else {
      RecordCheckInsHistory(db1, user, channel, projectName, times[1..]);
      assert CheckInsOf(db, user, channel) + [times[0]] + times[1..] == CheckInsOf(db, user, channel) + times;
    }
  }

  // ---------------------------------------------------------------------------
  // listTickets

  /** All tickets of a user in a channel, each once, in the unspecified order
      of Go's map iteration; none for an unknown user or channel. `order`
      is the sequence of ticket keys the iteration visited: every key once,
      and entry `i` of the list is the ticket under key `order[i]`. */
  method ListTickets(db: Database, user: string, channel: string) returns (r: seq<Ticket>, ghost order: seq<string>)
    ensures |order| == |r|
    ensures forall i, j :: 0 <= i < j < |order| ==> order[i] != order[j]
    ensures forall i :: 0 <= i < |order| ==> order[i] in TicketsOf(db, user, channel)
    ensures forall k :: k in TicketsOf(db, user, channel) <==> k in order
    ensures forall i :: 0 <= i < |r| ==> r[i] == TicketsOf(db, user, channel)[order[i]]
    ensures |r| == |TicketsOf(db, user, channel)|
    ensures forall i :: 0 <= i < |r| ==> r[i] in TicketsOf(db, user, channel).Values
    ensures forall k :: k in TicketsOf(db, user, channel) ==> TicketsOf(db, user, channel)[k] in r
    ensures WellNumbered(TicketsOf(db, user, channel)) ==>
      forall i, j :: 0 <= i < j < |r| ==> r[i].id != r[j].id
  {
    r := [];
    order := [];
    if user !in db || channel !in db[user] {
      return;
    }
    var tickets := db[user][channel].tickets;
    var rest := tickets.Keys;
    while rest != {}
      invariant rest <= tickets.Keys
      invariant |order| == |r|
      invariant forall i :: 0 <= i < |r| ==> order[i] in tickets && order[i] !in rest && r[i] == tickets[order[i]]
      invariant forall i, j :: 0 <= i < j < |order| ==> order[i] != order[j]
      invariant forall k :: k in tickets && k !in rest ==> k in order
      invariant |r| + |rest| == |tickets.Keys|
      decreases rest
    {
      var k :| k in rest;
      r := r + [tickets[k]];
      order := order + [k];
      rest := rest - {k};
    }
    forall k | k in tickets
      ensures tickets[k] in r
    {
      var i :| 0 <= i < |order| && order[i] == k;
      assert r[i] == tickets[k];
    }
  }

  // ---------------------------------------------------------------------------
  // The store invariant

  lemma CreateTicketValid(db: Database, tracked: map<string, string>, user: string, channel: string,
                          title: string, description: string, now: int)
    requires Valid(db)
    ensures Valid(CreateTicket(db, tracked, user, channel, title, description, now).db)
  {
    var r := CreateTicket(db, tracked, user, channel, title, description, now);
    assert WellNumbered(TicketsOf(db, user, channel)) by {
      if Lookup(db, user, channel).None? {
        assert TicketsOf(db, user, channel) == map[];
        assert IdRange(0) == {};
      }
    }
    CreateTicketFresh(db, tracked, user, channel, title, description, now);
    forall u, c | Lookup(r.db, u, c).Some?
      ensures WellNumbered(Lookup(r.db, u, c).value.tickets)
    {
      if u == user && c == channel {
        assert Lookup(r.db, u, c).value.tickets == TicketsOf(r.db, user, channel);
      } else {
        assert Lookup(r.db, u, c) == Lookup(db, u, c);
      }
    }
  }

  lemma CompleteTicketValid(db: Database, user: string, channel: string, id: string, now: int)
    requires Valid(db)
    ensures Valid(CompleteTicket(db, user, channel, id, now).db)
  {
    var r := CompleteTicket(db, user, channel, id, now);
    CompleteTicketWellNumbered(db, user, channel, id, now);
    forall u, c | Lookup(r.db, u, c).Some?
      ensures WellNumbered(Lookup(r.db, u, c).value.tickets)
    {
      if r.ok && u == user && c == channel {
        assert Lookup(r.db, u, c).value.tickets == TicketsOf(r.db, user, channel);
      } else {
        assert Lookup(r.db, u, c) == Lookup(db, u, c);
      }
    }
  }

  lemma RecordCheckInValid(db: Database, user: string, channel: string, projectName: string, now: int)
    requires Valid(db)
    ensures Valid(RecordCheckIn(db, user, channel, projectName, now))
  {
    var r := RecordCheckIn(db, user, channel, projectName, now);
    forall u, c | Lookup(r, u, c).Some?
      ensures WellNumbered(Lookup(r, u, c).value.tickets)
    {
      if u == user && c == channel {
        if Lookup(db, u, c).None? {
          assert IdRange(0) == {};
        }
      } else {
        assert Lookup(r, u, c) == Lookup(db, u, c);
      }
    }
  }

  /** Creates one ticket per title, in order, returning the ids handed out. */
  function CreateTickets(db: Database, tracked: map<string, string>, user: string, channel: string,
                         titles: seq<string>, now: int): (r: (Database, seq<string>))
    ensures |r.1| == |titles|
    decreases |titles|
  {
    if |titles| == 0 then (db, [])
    else
      var c := CreateTicket(db, tracked, user, channel, titles[0], "", now);
      var rest := CreateTickets(c.db, tracked, user, channel, titles[1..], now);
      (rest.0, [c.id] + rest.1)
  }

  /** The decimal forms of `from`, `from + 1`, ..., `from + k - 1`. */
  function IdSeq(from: nat, k: nat): (s: seq<string>)
    ensures |s| == k
    ensures forall i :: 0 <= i < k ==> s[i] == Decimal(from + i)
    decreases k
  {
    if k == 0 then [] else [Decimal(from)] + IdSeq(from + 1, k - 1)
  }

  /** Creating tickets one after another on well-numbered tickets hands out
      the next ids in sequence and keeps the tickets well numbered. */
  lemma {:induction false} CreateTicketsSequential(db: Database, tracked: map<string, string>, user: string,
                                                   channel: string, titles: seq<string>, now: int)
    requires WellNumbered(TicketsOf(db, user, channel))
    ensures var r := CreateTickets(db, tracked, user, channel, titles, now);
      var n := |TicketsOf(db, user, channel)|;
      && r.1 == IdSeq(n + 1, |titles|)
      && |TicketsOf(r.0, user, channel)| == n + |titles|
      && WellNumbered(TicketsOf(r.0, user, channel))
    decreases |titles|
  {
    if |titles| > 0 {
      var c := CreateTicket(db, tracked, user, channel, titles[0], "", now);
      CreateTicketFresh(db, tracked, user, channel, titles[0], "", now);
      CreateTicketsSequential(c.db, tracked, user, channel, titles[1..], now);
    }
  }

  /** On a (user, channel) pair with no activity yet, ticket ids are "1",
      "2", "3", ... in creation order. */
  lemma FreshTicketIds(db: Database, tracked: map<string, string>, user: string, channel: string,
                       titles: seq<string>, now: int)
    requires Lookup(db, user, channel).None?
    ensures CreateTickets(db, tracked, user, channel, titles, now).1 == IdSeq(1, |titles|)
  {
    assert IdRange(0) == {};
    CreateTicketsSequential(db, tracked, user, channel, titles, now);
  }
}

=== FILE: strings.dfy ===
/** The few pieces of Go's `strings` and `fmt` packages that the bot relies on,
    on strings taken as sequences of Unicode code points: trimming white space,
    splitting on a one-character separator, and decimal formatting of a count. */
module Strings {

  /** Go's `unicode.IsSpace`: the ASCII white space characters, NEL, NO-BREAK
      SPACE and the remaining code points with the White_Space property. */
  predicate IsSpace(c: char)
  {
    || c == ' ' || c == '\t' || c == '\n' || c == '\r' || c == '\U{000B}' || c == '\U{000C}'
    || c == '\U{0085}' || c == '\U{00A0}' || c == '\U{1680}'
    || ('\U{2000}' <= c <= '\U{200A}')
    || c == '\U{2028}' || c == '\U{2029}' || c == '\U{202F}' || c == '\U{205F}' || c == '\U{3000}'
  }

  predicate AllSpace(s: string)
  {
    forall i :: 0 <= i < |s| ==> IsSpace(s[i])
  }

  /** A string with no white space at either end. */
  predicate IsTrimmed(s: string)
  {
    |s| == 0 || (!IsSpace(s[0]) && !IsSpace(s[|s| - 1]))
  }

  /** Drops leading white space. */
  function TrimLeft(s: string): (r: string)
    ensures |r| <= |s| && r == s[|s| - |r|..]
    ensures AllSpace(s[..|s| - |r|])
    ensures |r| == 0 || !IsSpace(r[0])
  {
    if |s| > 0 && IsSpace(s[0]) then TrimLeft(s[1..]) else s
  }

  /** Drops trailing white space. */
  function TrimRight(s: string): (r: string)
    ensures |r| <= |s| && r == s[..|r|]
    ensures AllSpace(s[|r|..])
    ensures |r| == 0 || !IsSpace(r[|r| - 1])
  {
    if |s| > 0 && IsSpace(s[|s| - 1]) then TrimRight(s[..|s| - 1]) else s
  }

  /** Go's `strings.TrimSpace`: the infix of `s` left once white space is
      removed from both ends. */
  function TrimSpace(s: string): (r: string)
    ensures IsTrimmed(r)
    ensures |r| <= |s|
    ensures forall c :: c in r ==> c in s
  {
    var l := TrimLeft(s);
    var r := TrimRight(l);
    assert forall c :: c in r ==> c in l;
    assert forall c :: c in l ==> c in s;
    r
  }

  lemma {:induction false} TrimLeftSpaces(a: string, s: string)
    requires AllSpace(a)
    ensures TrimLeft(a + s) == TrimLeft(s)
    decreases |a|
  {
    if |a| > 0 {
      assert (a + s)[1..] == a[1..] + s;
      TrimLeftSpaces(a[1..], s);
    } else {
      assert a + s == s;
    }
  }

  lemma {:induction false} TrimRightSpaces(s: string, b: string)
    requires AllSpace(b)
    ensures TrimRight(s + b) == TrimRight(s)
    decreases |b|
  {
    if |b| > 0 {
      assert (s + b)[..|s + b| - 1] == s + b[..|b| - 1];
      TrimRightSpaces(s, b[..|b| - 1]);
    } else {
      assert s + b == s;
    }
  }

  /** Trimming a trimmed string padded on both sides with white space gives
      the string back; in particular `TrimSpace` is the identity on trimmed
      strings. */
  lemma TrimSpacePadded(a: string, s: string, b: string)
    requires AllSpace(a) && AllSpace(b) && IsTrimmed(s)
    ensures TrimSpace(a + s + b) == s
  {
    assert a + s + b == a + (s + b);
    TrimLeftSpaces(a, s + b);
    if |s| == 0 {
      assert s + b == b;
      assert AllSpace(b[..|b| - |TrimLeft(b)|]);
      assert TrimLeft(b) == [];
    } else {
      assert (s + b)[0] == s[0];
    }
    TrimRightSpaces(s, b);
  }

  /** Trimming leaves a trimmed string alone. */
  lemma TrimmedFixed(s: string)
    requires IsTrimmed(s)
    ensures TrimSpace(s) == s
  {
    assert [] + s + [] == s;
    TrimSpacePadded([], s, []);
  }

  lemma TrimSpaceIdempotent(s: string)
    ensures TrimSpace(TrimSpace(s)) == TrimSpace(s)
  {
    TrimmedFixed(TrimSpace(s));
  }

  /** The position of the first occurrence of `c` in `s`. */
  function IndexOf(s: string, c: char): (i: nat)
    requires c in s
    ensures i < |s| && s[i] == c && c !in s[..i]
  {
    if s[0] == c then 0 else 1 + IndexOf(s[1..], c)
  }

  lemma IndexOfConcat(a: string, c: char, b: string)
    requires c !in a
    ensures c in a + [c] + b && IndexOf(a + [c] + b, c) == |a|
  {
    var s := a + [c] + b;
    assert s[|a|] == c;
    assert s[..|a|] == a;
  }

  /** The inverse of splitting: the parts glued back together with `sep`. */
  function Join(parts: seq<string>, sep: char): string
    requires |parts| >= 1
  {
    if |parts| == 1 then parts[0] else parts[0] + [sep] + Join(parts[1..], sep)
  }

  /** What `SplitN` with limit `n` can produce: between 1 and `n` parts, no
      separator in any but the last, and none in the last either unless the
      limit was reached. */
  predicate SplitShape(parts: seq<string>, sep: char, n: nat)
  {
    && 1 <= |parts| <= n
    && (forall i :: 0 <= i < |parts| - 1 ==> sep !in parts[i])
    && (|parts| < n ==> sep !in parts[|parts| - 1])
  }

  /** Go's `strings.SplitN(s, sep, n)` for `n >= 1` and a one-character
      separator: at most `n` parts, split at the first `n - 1` separators,
      the last part holding the unsplit remainder. */
  function SplitN(s: string, sep: char, n: nat): (parts: seq<string>)
    requires n >= 1
    ensures SplitShape(parts, sep, n)
    decreases n
  {
    if n == 1 || sep !in s then [s]
    else
      var i := IndexOf(s, sep);
      [s[..i]] + SplitN(s[i + 1..], sep, n - 1)
  }

  /** Joining the parts of a split gives the string back. */
  lemma {:induction false} JoinSplitN(s: string, sep: char, n: nat)
    requires n >= 1
    ensures Join(SplitN(s, sep, n), sep) == s
    decreases n
  {
    if n > 1 && sep in s {
      var i := IndexOf(s, sep);
      JoinSplitN(s[i + 1..], sep, n - 1);
      assert s == s[..i] + [sep] + s[i + 1..];
      var parts := SplitN(s, sep, n);
      assert parts[1..] == SplitN(s[i + 1..], sep, n - 1);
    }
  }

  /** A string without the separator splits into itself alone. */
  lemma SplitNoSeparator(s: string, sep: char, n: nat)
    requires sep !in s && n >= 1
    ensures SplitN(s, sep, n) == [s]
  {
  }

  /** Splitting at a first separator that follows a separator-free head. */
  lemma SplitNCons(p: string, sep: char, rest: string, n: nat)
    requires sep !in p && n >= 2
    ensures SplitN(p + [sep] + rest, sep, n) == [p] + SplitN(rest, sep, n - 1)
  {
    var s := p + [sep] + rest;
    IndexOfConcat(p, sep, rest);
    assert s[..|p|] == p;
    assert s[|p| + 1..] == rest;
  }

  lemma SplitShapeTail(parts: seq<string>, sep: char, n: nat)
    requires SplitShape(parts, sep, n) && |parts| > 1
    ensures sep !in parts[0] && n >= 2
    ensures SplitShape(parts[1..], sep, n - 1)
  {
    var tail := parts[1..];
    forall i | 0 <= i < |tail| - 1
      ensures sep !in tail[i]
    {
      assert tail[i] == parts[i + 1];
    }
  }

  lemma SplitNJoinStep(parts: seq<string>, sep: char, n: nat)
    requires |parts| >= 2 && n >= 2 && sep !in parts[0]
    requires SplitN(Join(parts[1..], sep), sep, n - 1) == parts[1..]
    ensures SplitN(Join(parts, sep), sep, n) == parts
  {
    var r := Join(parts[1..], sep);
    calc {
      SplitN(Join(parts, sep), sep, n);
      SplitN(parts[0] + [sep] + r, sep, n);
      { SplitNCons(parts[0], sep, r, n); }
      [parts[0]] + SplitN(r, sep, n - 1);
      { assert SplitN(r, sep, n - 1) == parts[1..]; }
      [parts[0]] + parts[1..];
      parts;
    }
  }

  /** Splitting a joined list of parts gives the parts back, provided they are
      what a split could have produced. */
  lemma {:induction false} SplitNJoin(parts: seq<string>, sep: char, n: nat)
    requires SplitShape(parts, sep, n)
    ensures SplitN(Join(parts, sep), sep, n) == parts
    decreases |parts|
  {
    if |parts| > 1 {
      SplitShapeTail(parts, sep, n);
      SplitNJoin(parts[1..], sep, n - 1);
      SplitNJoinStep(parts, sep, n);
    } else {
      assert parts == [parts[0]];
    }
  }

  /** Go's `strings.Split(s, sep)` for a one-character separator: split at
      every separator. */
  function Split(s: string, sep: char): (parts: seq<string>)
    ensures |parts| >= 1
    ensures Join(parts, sep) == s
    ensures forall i :: 0 <= i < |parts| ==> sep !in parts[i]
    decreases |s|
  {
    if sep !in s then [s]
    else
      var i := IndexOf(s, sep);
      assert s == s[..i] + [sep] + s[i + 1..];
      [s[..i]] + Split(s[i + 1..], sep)
  }

  /** The number of parts `Split` produces is one more than the number of
      separators in the string. */
  lemma {:induction false} SplitCount(s: string, sep: char)
    ensures |Split(s, sep)| == multiset(s)[sep] + 1
    decreases |s|
  {
    if sep in s {
      var i := IndexOf(s, sep);
      assert s == s[..i] + [sep] + s[i + 1..];
      assert multiset(s) == multiset(s[..i]) + multiset{sep} + multiset(s[i + 1..]);
      assert multiset(s[..i])[sep] == 0;
      SplitCount(s[i + 1..], sep);
    } else {
      assert multiset(s)[sep] == 0;
    }
  }

  predicate IsDigit(c: char)
  {
    '0' <= c <= '9'
  }

  function DigitChar(d: nat): (c: char)
    requires d < 10
    ensures IsDigit(c)
  {
    (48 + d) as char
  }

  function DigitValue(c: char): (d: nat)
    requires IsDigit(c)
    ensures d < 10 && DigitChar(d) == c
  {
    c as int - 48
  }

  /** `fmt.Sprintf("%d", n)` for a non-negative `n`: its decimal digits, most
      significant first, without leading zeros. */
  function Decimal(n: nat): (s: string)
    ensures |s| >= 1
    ensures forall i :: 0 <= i < |s| ==> IsDigit(s[i])
    ensures s[0] == '0' <==> n == 0
    decreases n
  {
    if n < 10 then [DigitChar(n)] else Decimal(n / 10) + [DigitChar(n % 10)]
  }

  /** The value of a string of decimal digits. */
  function ParseDecimal(s: string): nat
    requires forall i :: 0 <= i < |s| ==> IsDigit(s[i])
  {
    if |s| == 0 then 0 else ParseDecimal(s[..|s| - 1]) * 10 + DigitValue(s[|s| - 1])
  }

  lemma {:induction false} DecimalRoundTrip(n: nat)
    ensures ParseDecimal(Decimal(n)) == n
    decreases n
  {
    var s := Decimal(n);
    if n < 10 {
      assert s[..0] == [];
      assert (48 + n) as char as int - 48 == n;
    } else {
      assert s[..|s| - 1] == Decimal(n / 10);
      assert s[|s| - 1] == DigitChar(n % 10);
      DecimalRoundTrip(n / 10);
      assert DigitValue(DigitChar(n % 10)) == n % 10;
    }
  }

  /** Distinct numbers have distinct decimal forms. */
  lemma DecimalInjective(a: nat, b: nat)
    ensures Decimal(a) == Decimal(b) ==> a == b
  {
    if Decimal(a) == Decimal(b) {
      DecimalRoundTrip(a);
      DecimalRoundTrip(b);
    }
  }
}

=== FILE: wrappers.dfy ===
/** A minimal optional-value datatype, used for lookups that may miss and for
    fields that hold Go's zero value until they are set. */
module Wrappers {

  datatype Option<+T> = None | Some(value: T) {

    /** Returns the value held in Some, or the given default when None. */
    function GetOr(default: T): T
    {
      match this
      case Some(v) => v
      case None => default
    }
  }
}
